=== FILE: README.md ===
# ARM lease tooling: a verified model

The `eng/scripts` tooling of the Azure REST API specifications repository handles
ARM leases. A lease is a `lease.yaml` file under `.github/arm-leases/<service>/<resource provider>[/<service group>]/`.
It records that a resource provider, or one of its service groups, may skip a review
until a date. The model covers four scripts:

- `generate-lease-files.js` reads entries such as `service, Microsoft.Provider, [Group1, Group2]`
  from an input file. It validates the start date, the duration, the service name and
  the resource-provider name, and writes one `lease.yaml` per entry or per service group.
- `fetch-resource-providers.js` walks `specification/<service>/resource-manager/Microsoft.*`
  and lists the resource providers that have service-group subdirectories, or those
  that have none but do have a `stable` or `preview` directory. It prints them as JSON,
  as a table or as a list. With groups, the list is in exactly the input format the
  lease generator reads.
- `fetch_resource_providers.py` is the same scan in Python, with its own table and
  list formats.
- `fetch_rp_without_service_groups.py` is the older scan that covers only resource
  providers without groups.

The Dafny modules follow those files:

- `Wrappers`: `Option` and `Result`.
- `Text`: the string built-ins the scripts call, with JavaScript's definition of white
  space for `trim` and `\s`.
- `Order`: code-point lexicographic order and an insertion sort.
- `SpecTree`: the directory tree, the rules the three scanners share, and the search
  for the repository root.
- `LeaseFiles`: the lease generator.
- `FetchJs`, `FetchPy` and `FetchWithoutPy`: the three scanners.
- `Pipeline`: what happens when one script's output is fed to another.

The file system is an immutable tree. A directory is one listing, and both
scanners walk it in that order (see Left out for how Node and Python order it). A `Dangling` entry is a broken link: it is listed, but it does not
exist for `existsSync` / `exists()`, it is not a directory for `is_dir()`, and
`fs.statSync` throws on it. The clock is a parameter. Writing files is replaced by the
list of `(path, content)` pairs that `processEntry` would write.

Two behaviours of the scripts are worth knowing, and the model proves both.

- The JavaScript and Python scanners differ on a broken link directly under
  `specification`. Python skips it. JavaScript's `statSync` throws, so the whole scan
  fails (`FetchJs.BrokenServiceLink`). On every tree where JavaScript succeeds, the two
  produce the same set of records (`FetchJs.Find`); their order can differ (see Left out).
- In the Python with-groups table, the heading `Service Groups` starts at the same
  column as the groups only when some name is at least 17 characters long, the length
  of `Resource Provider` (`FetchPy.HeaderGap`). With shorter names the heading is
  pushed right. This is how `:<n` formatting behaves, not a defect.

## Model

| member | source | states |
|---|---|---|
| SpecTree.Lookup | eng/scripts/fetch-resource-providers.js:85 | the child found under a name is the one listed under that name; none exactly when no entry has that name |
| SpecTree.ServiceGroups | eng/scripts/fetch-resource-providers.js:98-106 | the collected names are exactly the names of the listed service-group directories; the list is empty exactly when no child is one |
| SpecTree.Classify | eng/scripts/fetch_resource_providers.py:69-83 | with groups, a provider is listed exactly when it has a service-group directory, and its groups are a sorted permutation of them; without groups, exactly when it has none and has `stable` or `preview`, and the record has no groups field; name, service and relative path always come from where the provider was found |
| SpecTree.ModesExclusive | eng/scripts/fetch_resource_providers.py:71-83 | no resource provider is listed by both modes |
| SpecTree.Select | eng/scripts/fetch-resource-providers.js:110-123 | the records collected are exactly the classified candidates, at most one per candidate |
| SpecTree.SortByName | eng/scripts/fetch_resource_providers.py:85 | the records come out ordered by name and are a permutation of the input |
| SpecTree.ListedIsWellFormed | eng/scripts/fetch_resource_providers.py:66-83 | every listed record has a `Microsoft.` name and the path `specification/<service>/resource-manager/<name>`; it has a non-empty sorted groups field exactly in with-groups mode |
| SpecTree.SelectSorted | eng/scripts/fetch_resource_providers.py:58-86 | classifying all the found candidates and sorting them yields exactly the records a full scan should list |
| SpecTree.FoundCons | eng/scripts/fetch_resource_providers.py:58-67 | a candidate comes from the first service's `resource-manager` directory or from the remaining services |
| SpecTree.MaxLength | eng/scripts/fetch_resource_providers.py:100 | the column width is at least every field's length and equals one of them; it is 0 for no fields |
| SpecTree.WidthsFit | eng/scripts/fetch_resource_providers.py:106-107 | every name and every service fits the width computed over all records |
| SpecTree.Row2Layout | eng/scripts/fetch_resource_providers.py:103-104 | a field padded to a width at least its length starts the row, is followed only by spaces (`' '`) up to that width and through the two-space gap, and the last column begins two characters later |
| SpecTree.Row3Layout | eng/scripts/fetch_resource_providers.py:110-111 | in a three-column row, each of the first two fields starts its own column and is followed only by spaces up to the column's width and its two-space gap; the last column starts after both gaps |
| SpecTree.RenderExcludes | eng/scripts/fetch-resource-providers.js:159-161 | a padded row contains no character other than a space that none of its fields contains |
| SpecTree.Row3IsNested | eng/scripts/fetch-resource-providers.js:150-152 | a three-column row is a two-column row whose last column is itself a row |
| SpecTree.HeadingsSingleLine | eng/scripts/fetch-resource-providers.js:150 | the column headings hold no line break, and `Resource Provider` is 17 characters |
| SpecTree.FindRepoRoot | eng/scripts/fetch_resource_providers.py:33-48 | succeeds exactly when the start directory or one of its first five parents holds `specification` (a directory, for the scanners; any existing entry, for the lease generator), and returns the nearest such one; otherwise fails with the not-found error |
| FetchJs.WalkItems | eng/scripts/fetch-resource-providers.js:89-96 | the walk of one `resource-manager` directory fails exactly when an item is a broken link, and reports that item's path; when it succeeds it agrees with the Python walk |
| FetchJs.WalkServices | eng/scripts/fetch-resource-providers.js:77-96 | the walk of the services succeeds exactly when every service can be stat-ed and read, and then agrees with the Python walk |
| FetchJs.Walk | eng/scripts/fetch-resource-providers.js:69-96 | a missing `specification` is the not-found error; a `specification` file is a not-a-directory error; the walk succeeds exactly when `specification` is a directory whose services are all readable |
| FetchJs.Find | eng/scripts/fetch-resource-providers.js:67-129 | on success the result is the Python scan's result: sorted by name and holding exactly the records to list; it fails whenever the Python scan fails |
| FetchJs.BrokenServiceLink | eng/scripts/fetch-resource-providers.js:80 | for a tree whose only service is a broken link, Python lists nothing while JavaScript fails with that service's path |
| FetchJs.FormatOutput | eng/scripts/fetch-resource-providers.js:134-142 | JSON output is the records themselves, and only the JSON format gives it; every other format of an empty list gives the none-found message for the mode |
| FetchJs.ListOutputLines | eng/scripts/fetch-resource-providers.js:166-175 | the list output has one line per record, and each starts with `service, name` |
| FetchJs.ListLineFacts | eng/scripts/fetch-resource-providers.js:169 | a list line of single-line fields is one line starting with `service, name` |
| FetchJs.TableLinesSingle | eng/scripts/fetch-resource-providers.js:144-163 | no line of the table contains a line break when no field does |
| FetchJs.RowsSingle | eng/scripts/fetch-resource-providers.js:151-153 | no row contains a line break when no field does |
| FetchJs.HeadingSingle | eng/scripts/fetch-resource-providers.js:150-151 | the heading and the rule are single lines |
| FetchJs.RowSingle | eng/scripts/fetch-resource-providers.js:159-161 | a row of single-line fields is a single line |
| FetchJs.TableLayout | eng/scripts/fetch-resource-providers.js:144-163 | splitting the table output at line breaks gives two heading lines and then, per record, a row whose service, name and last column sit in aligned columns |
| FetchJs.TableSplit | eng/scripts/fetch-resource-providers.js:162 | the table output splits back into exactly its lines |
| FetchJs.TableRows | eng/scripts/fetch-resource-providers.js:151-153 | every record's row has the aligned-column shape under the computed widths |
| FetchJs.RowLayout | eng/scripts/fetch-resource-providers.js:159-161 | a record whose fields fit the widths renders as aligned columns holding exactly its fields |
| FetchPy.WalkItems | eng/scripts/fetch_resource_providers.py:65-67 | the candidates of one service are exactly its `Microsoft.` directories |
| FetchPy.WalkServices | eng/scripts/fetch_resource_providers.py:58-67 | the walk fails exactly when some service's `resource-manager` exists but is a file, and otherwise yields exactly the found candidates |
| FetchPy.Walk | eng/scripts/fetch_resource_providers.py:54-67 | a missing `specification` is the not-found error; a file there is a not-a-directory error; otherwise the walk yields exactly the found candidates |
| FetchPy.Find | eng/scripts/fetch_resource_providers.py:51-86 | on success the records are sorted by name, are exactly the ones to list, and are each well formed; the error cases are those of the walk |
| FetchPy.FormatOutput | eng/scripts/fetch_resource_providers.py:89-96 | JSON output is the records themselves, and only the JSON format gives it; every other format of an empty list gives the none-found message |
| FetchPy.ListOutputLines | eng/scripts/fetch_resource_providers.py:114-119 | the list has one line per record, each starting with the name; without groups the lines are exactly the names |
| FetchPy.ListLineFacts | eng/scripts/fetch_resource_providers.py:116 | a list line of single-line fields is one line that starts with the name |
| FetchPy.TableLinesSingle | eng/scripts/fetch_resource_providers.py:98-112 | no line of the table contains a line break when no field does |
| FetchPy.RowsSingle | eng/scripts/fetch_resource_providers.py:103-104 | no row contains a line break when no field does |
| FetchPy.HeadingSingle | eng/scripts/fetch_resource_providers.py:101-102 | the heading and the rule are single lines |
| FetchPy.RowSingle | eng/scripts/fetch_resource_providers.py:110-111 | a row of single-line fields is a single line |
| FetchPy.TableLayout | eng/scripts/fetch_resource_providers.py:98-112 | the table output splits into the heading, the rule and one aligned row per record; with groups the first line is the group heading |
| FetchPy.TableSplit | eng/scripts/fetch_resource_providers.py:112 | the table output splits back into exactly its lines |
| FetchPy.TableRows | eng/scripts/fetch_resource_providers.py:103-111 | every record's row has the aligned-column shape under the computed widths |
| FetchPy.RowLayout | eng/scripts/fetch_resource_providers.py:110-111 | a record whose fields fit the widths renders as aligned columns holding exactly its fields |
| FetchPy.HeaderGap | eng/scripts/fetch_resource_providers.py:100-101 | the group heading has its two-space gap at the name column's width exactly when that width is at least the length of `Resource Provider` |
| FetchPy.NarrowHeaderGap | eng/scripts/fetch_resource_providers.py:101 | with a narrower name column the heading has no two spaces at the column boundary |
| FetchPy.NameHeaderSingleSpaced | eng/scripts/fetch_resource_providers.py:101 | `Resource Provider` has no two spaces in a row and does not end in a space |
| FetchWithoutPy.SelectBare | eng/scripts/fetch_rp_without_service_groups.py:116-129 | a record is collected exactly when a candidate has no service-group directory and has a version directory, and it is built from that candidate with no groups field |
| FetchWithoutPy.SelectBareIsWithoutGroups | eng/scripts/fetch_rp_without_service_groups.py:116-129 | this script's selection is the general script's without-groups selection |
| FetchWithoutPy.Find | eng/scripts/fetch_rp_without_service_groups.py:86-134 | the scan equals the general Python scan in without-groups mode; a missing `specification` is the not-found error; the result is sorted and holds exactly the records to list |
| FetchWithoutPy.FormatOutput | eng/scripts/fetch_rp_without_service_groups.py:137-179 | JSON output is the records, and only JSON gives it; an empty list gives the without message in both text formats; the table equals the general script's without-groups table |
| FetchWithoutPy.ListLineRoundTrip | eng/scripts/fetch_rp_without_service_groups.py:174-177 | a `name (service)` line reads back as its name and service when the name has no space |
| FetchWithoutPy.ListOutputLines | eng/scripts/fetch_rp_without_service_groups.py:171-179 | the list and the JSON output have one item per record, and each list line reads back as that record's name and service |
| LeaseFiles.ValidateStartDate | eng/scripts/generate-lease-files.js:171-184 | the format error is raised exactly for text not shaped `dddd-dd-dd`; a well-formed date is accepted, unchanged, exactly when it is not before today; the only errors are the format error and the in-the-past error |
| LeaseFiles.DateTextOrderIsCalendarOrder | eng/scripts/generate-lease-files.js:175-179 | for two well-formed dates, text order is the order of (year, month, day) |
| LeaseFiles.DateTextOrder | eng/scripts/generate-lease-files.js:179 | text order on well-formed dates compares the year, then the month, then the day fields |
| LeaseFiles.DateTextEquality | eng/scripts/generate-lease-files.js:179 | two well-formed dates are equal exactly when their year, month and day fields are |
| LeaseFiles.FixedWidthOrder | eng/scripts/generate-lease-files.js:175 | digit strings of equal length compare as text the way their numbers compare |
| LeaseFiles.ValidateDuration | eng/scripts/generate-lease-files.js:189-201 | the format error is raised exactly for text not matching `P<digits>D` in either case; the duration is accepted exactly when its days are 1 to 180, and then comes back upper-cased; otherwise the error carries the day count |
| LeaseFiles.ValidateDurationIdempotent | eng/scripts/generate-lease-files.js:189-201 | validating an accepted duration again accepts it unchanged |
| LeaseFiles.DurationOfDays | eng/scripts/generate-lease-files.js:195-200 | `P<n>D` is accepted exactly when n is 1 to 180, and otherwise reports n |
| LeaseFiles.ValidateResourceProvider | eng/scripts/generate-lease-files.js:206-214 | the name is accepted, unchanged, exactly when every dot-separated part starts with a capital; otherwise the error names it |
| LeaseFiles.ResourceProviderShape | eng/scripts/generate-lease-files.js:206-214 | a name is accepted exactly when it starts with a capital and a capital follows every dot |
| LeaseFiles.SplitCapitalised | eng/scripts/generate-lease-files.js:207-212 | every part of the split starts with a capital exactly when the text starts with one and a capital follows every dot |
| LeaseFiles.CapitalisedParts | eng/scripts/generate-lease-files.js:207-212 | the parts check splits into the first part and the parts after the first dot |
| LeaseFiles.CapitalAfterFirstDot | eng/scripts/generate-lease-files.js:207-212 | the after-every-dot check splits at the first dot the same way |
| LeaseFiles.ValidateServiceName | eng/scripts/generate-lease-files.js:219-224 | the name is accepted, unchanged, exactly when it is non-empty and all lower-case ASCII letters and digits; otherwise the error names it |
| LeaseFiles.ValidServiceNameIsPlain | eng/scripts/generate-lease-files.js:219-224 | an accepted service name has no white space, comma, bracket, line break or `/`, and does not start a comment |
| LeaseFiles.SplitGroups | eng/scripts/generate-lease-files.js:246-248 | every group is non-empty and trimmed with no comma; no group has `]` when the bracket text has none |
| LeaseFiles.KeepNonEmptyTrimmed | eng/scripts/generate-lease-files.js:247-248 | every kept part is non-empty and trimmed; a part whose trimmed text is non-empty is kept, and every kept text is some part trimmed |
| LeaseFiles.SplitGroupsPiece | eng/scripts/generate-lease-files.js:246-248 | text without a comma gives its trimmed self as the one group, or no group when that is empty |
| LeaseFiles.SplitGroupsComma | eng/scripts/generate-lease-files.js:246-248 | the groups of `a,b` for a comma-free `a` are the groups of `a` followed by those of `b` |
| LeaseFiles.KeepExcludes | eng/scripts/generate-lease-files.js:247-248 | trimming and filtering introduce no character the parts lacked |
| LeaseFiles.ParseInputLine | eng/scripts/generate-lease-files.js:229-251 | a line gives an entry exactly when, trimmed, it is non-empty, not a `#` comment, and reads as a service without commas, a comma, a field without `,` or `[`, and nothing or `,` white space `[groups]` with no `]` inside; blank lines, comments and lines without a comma give none; an entry is well formed and its service starts the trimmed line |
| LeaseFiles.ParseInputLineFields | eng/scripts/generate-lease-files.js:237-250 | for such a line, the entry is the trimmed service, the trimmed field, and the groups of the tail |
| LeaseFiles.MatchEntry | eng/scripts/generate-lease-files.js:237-250 | the line pattern matches exactly the lines made of a service, a comma, a field and a groups tail as above; its entries are well formed and begin with the line's first character |
| LeaseFiles.MatchEntryOfFields | eng/scripts/generate-lease-files.js:237-245 | a line made of such fields is matched with the trimmed service and field and the given tail, whichever way it is written as fields |
| LeaseFiles.LineFieldsExist | eng/scripts/generate-lease-files.js:237 | a line reads as fields exactly when its first comma is neither first nor last, a character other than `,` and `[` follows it, and a groups tail comes after that field |
| LeaseFiles.LineFieldsAt | eng/scripts/generate-lease-files.js:237 | the fields of a line are unique: the service ends at the first comma and the field at the next `,` or `[` |
| LeaseFiles.MatchTail | eng/scripts/generate-lease-files.js:237-248 | the tail is accepted exactly when it is empty or a comma, white space and `[inner]` ending the line with non-empty `inner` free of `]`; an entry keeps the given service and provider, and its groups are non-empty, trimmed and free of `,` and `]` |
| LeaseFiles.MatchTailGroups | eng/scripts/generate-lease-files.js:237-248 | for a bracketed tail the groups are those of the text between the brackets |
| LeaseFiles.MatchEntryFields | eng/scripts/generate-lease-files.js:237-245 | the service runs to the first comma and the provider to the next `,` or `[`, both trimmed |
| LeaseFiles.ParseFieldsLine | eng/scripts/generate-lease-files.js:229-251 | a line `service, name` followed by a tail parses as the trimmed fields with that tail |
| LeaseFiles.ParseTrimmedLine | eng/scripts/generate-lease-files.js:230-233 | a trimmed, non-empty, non-comment line is parsed by the pattern as it is |
| LeaseFiles.ParseInput | eng/scripts/generate-lease-files.js:466-474 | the entries of an input file are at most its lines and are each well formed |
| LeaseFiles.ParseLines | eng/scripts/generate-lease-files.js:469-474 | the entries of the lines are at most the lines and are each well formed |
| LeaseFiles.ParseLinesAppend | eng/scripts/generate-lease-files.js:469-474 | parsing two blocks of lines gives the entries of the first block followed by those of the second |
| LeaseFiles.ParseLinesAll | eng/scripts/generate-lease-files.js:469-474 | when every line parses, the entries are exactly the parsed lines, in order |
| LeaseFiles.ParseLinesNoComma | eng/scripts/generate-lease-files.js:469-474 | lines without a comma contribute no entries |
| LeaseFiles.SplitGroupsOfJoin | eng/scripts/generate-lease-files.js:246-248 | splitting the comma-space join of trimmed, comma-free, non-empty groups gives back the groups |
| LeaseFiles.LeaseYamlRoundTrip | eng/scripts/generate-lease-files.js:256-263 | reading back the generated `lease.yaml` gives the four values it was generated from |
| LeaseFiles.LeasePathSegments | eng/scripts/generate-lease-files.js:268-274 | the lease path is the repository root, a `/`, and then those segments separated by `/` |
| LeaseFiles.LeasePathInjective | eng/scripts/generate-lease-files.js:268-274 | two slash-free (service, provider, group) triples with the same lease path agree, an empty group counting as none |
| LeaseFiles.LeaseSegmentsInjective | eng/scripts/generate-lease-files.js:268-274 | equal segment lists come from the same service, provider and effective group |
| LeaseFiles.ProcessEntry | eng/scripts/generate-lease-files.js:304-328 | an entry is rejected exactly when its service or provider is invalid, with the service error first; otherwise it plans one file at the no-group path, or one per group at that group's path, each holding the generated `lease.yaml` |
| LeaseFiles.PlannedPathsDistinct | eng/scripts/generate-lease-files.js:318-323 | distinct non-empty slash-free groups give distinct lease paths |
| LeaseFiles.SampleDigits | eng/scripts/Tests/generate-lease-files.test.js:120-146 | the day strings of the duration tests read as their numbers |
| LeaseFiles.DurationExamples | eng/scripts/Tests/generate-lease-files.test.js:120-146 | `P180D` is accepted; `p30d` is accepted as `P30D`; `180 days` is a format error; `P200D` is out of range |
| LeaseFiles.ZeroDurationExample | eng/scripts/Tests/generate-lease-files.test.js:151-160 | `P0D` is out of range with 0 days |
| LeaseFiles.NameExamples | eng/scripts/Tests/generate-lease-files.test.js:187-214 | `testservice123` is accepted and `test-service` is rejected |
| LeaseFiles.CapitalServiceExample | eng/scripts/Tests/generate-lease-files.test.js:193-202 | `TestService` is rejected with the lower-case error |
| LeaseFiles.LowercaseProviderExample | eng/scripts/Tests/generate-lease-files.test.js:172-182 | `microsoft.Test` is rejected |
| LeaseFiles.EmptyPartExample | eng/scripts/generate-lease-files.js:206-214 | `A..B` is rejected, since its empty middle part starts with no capital |
| LeaseFiles.PastDateExample | eng/scripts/Tests/generate-lease-files.test.js:105-116 | `2020-01-01` is rejected as in the past |
| LeaseFiles.SampleDatePattern | eng/scripts/Tests/generate-lease-files.test.js:105-107 | `2020-01-01` is shaped `dddd-dd-dd` |
| LeaseFiles.DateFormatExample | eng/scripts/Tests/generate-lease-files.test.js:93-102 | `12/31/2026` is a format error |
| LeaseFiles.SkippedLineExamples | eng/scripts/Tests/generate-lease-files.test.js:35-42 | the empty line and a comment line give no entry |
| Pipeline.LineRoundTrip | eng/scripts/fetch-resource-providers.js:166-175 | a list line of a record with plain fields parses, in the lease generator, as the entry for that record: its service, its name, and its groups in with-groups mode |
| Pipeline.LineFields | eng/scripts/generate-lease-files.js:237-245 | a list line parses as its service and name followed by its groups tail |
| Pipeline.GroupsTail | eng/scripts/generate-lease-files.js:241-248 | the `, [g1, g2]` tail of plain groups reads back as exactly those groups |
| Pipeline.ListReportRoundTrip | eng/scripts/fetch-resource-providers.js:251-257 | feeding the list output together with its total line to the lease generator gives exactly one entry per record, in order |
| Pipeline.SummaryParse | eng/scripts/fetch-resource-providers.js:254-257 | the blank lines and the total line around the summary give no entries |
| Pipeline.ReportSplit | eng/scripts/fetch-resource-providers.js:251-257 | the printed report splits into the list lines, a blank line, the total line and a final empty line |
| Pipeline.OutputLinesParse | eng/scripts/generate-lease-files.js:466-474 | the list lines parse as exactly the records' entries; the none-found message gives none |
| Pipeline.ReportLines | eng/scripts/fetch-resource-providers.js:252-256 | the output, a blank line and the total line are one join of lines |
| Pipeline.ListLinesSingle | eng/scripts/fetch-resource-providers.js:139-175 | every output line is a single line, and the none-found message has no comma |
| Pipeline.MessageFacts | eng/scripts/fetch-resource-providers.js:139-142 | the none-found message has no comma and no line break |
| Pipeline.SummaryFacts | eng/scripts/fetch-resource-providers.js:255-256 | the total line has no comma and no line break |
| Pipeline.PythonListIsNotLeaseInput | eng/scripts/fetch_resource_providers.py:114-119 | a Python list line that the lease generator accepts at all starts with the capital `M`, so its entry is always rejected for its service name |
| Pipeline.CapitalLineRejected | eng/scripts/generate-lease-files.js:304-310 | a line starting with a capital letter never yields an entry that processing accepts |
| Pipeline.CapitalServiceRejected | eng/scripts/generate-lease-files.js:304-310 | an entry whose service starts with a capital is rejected with the service-name error |
| Order.LessEqTotal | eng/scripts/fetch_resource_providers.py:85 | any two names are comparable |
| Order.LessEqAntisymmetric | eng/scripts/fetch_resource_providers.py:85 | names that are each at most the other are equal |
| Order.LessEqTransitive | eng/scripts/fetch_resource_providers.py:85 | the name order is transitive |
| Order.LessEqReflexive | eng/scripts/fetch_resource_providers.py:85 | every name is at most itself |
| Order.SortedByPairwise | eng/scripts/fetch_resource_providers.py:85 | in a sorted list, every earlier key is at most every later one |
| Order.Insert | eng/scripts/fetch_resource_providers.py:85 | inserting into a sorted list keeps it sorted and adds exactly the new element |
| Order.SortBy | eng/scripts/fetch_resource_providers.py:85 | the result is sorted by the key and is a permutation of the input |
| Order.SortStrings | eng/scripts/fetch_resource_providers.py:76 | the service groups come out sorted and as a permutation of the input |
| Order.SortedPermutationUnique | eng/scripts/fetch_resource_providers.py:76 | two sorted permutations of the same strings are equal, so the sorted groups are determined by the groups |
| Text.Trim | eng/scripts/generate-lease-files.js:230 | the result has no white space at either end and is no longer than the input |
| Text.TrimInfix | eng/scripts/generate-lease-files.js:230 | the trimmed text is a slice of the input with only white space before and after it |
| Text.TrimOfTrimmed | eng/scripts/generate-lease-files.js:243-244 | trimming text that has no surrounding white space changes nothing |
| Text.IndexOf | eng/scripts/generate-lease-files.js:237 | the position is that of the first occurrence, or the length when there is none |
| Text.IndexOfAny | eng/scripts/generate-lease-files.js:237 | the position is that of the first character from the set, or the length when there is none |
| Text.Split | eng/scripts/generate-lease-files.js:467 | there is at least one part; no part holds the separator; joining the parts with it gives back the text |
| Text.SplitJoin | eng/scripts/generate-lease-files.js:467 | splitting a join of separator-free parts gives back the parts |
| Text.SplitOne | eng/scripts/generate-lease-files.js:246 | text without the separator is one part |
| Text.SplitCons | eng/scripts/generate-lease-files.js:246 | the text before the first separator is the first part, and the rest splits on its own |
| Text.Repeat | eng/scripts/fetch_resource_providers.py:102 | the rule has the requested length and holds only the repeated character |
| Text.PadEnd | eng/scripts/fetch-resource-providers.js:150 | a padded field is as wide as the column, or keeps its length when it is longer |
| Text.NatToString | eng/scripts/fetch-resource-providers.js:256 | the count prints as a non-empty string of digits that reads back as the count |

## Left out

- The command line is not modelled: argument parsing, help text, the interactive prompt of the lease generator, console output and exit codes. The one exception is the text `main` prints after a list, which `Pipeline` models.
- File writes are not modelled. This covers `createLeaseFile`'s directory creation, its skip-if-exists check and its dry-run message. `ProcessEntry` returns the files it would write instead.
- The clock is a parameter. `getTodayDate` and `new Date()` are replaced by the caller's `today` in `YYYY-MM-DD` form.
- LeaseFiles.ValidateStartDate: compares the date text with today's date instead of two `Date` values. JavaScript's handling of out-of-range months and days is not modelled: an invalid `Date` compares as not in the past and is accepted. The mix of UTC midnight for the start date and local midnight for today is also not modelled.
- JSON rendering (`JSON.stringify` / `json.dumps`) is not modelled: the JSON output is the list of records.
- SpecTree.SortByName: states sortedness and permutation but not stability. The order is code-point order, which is exactly Python's `str` order and, outside the astral planes, the JavaScript default `sort()` the group lists use.
- FetchJs.Find: sorts by code-point order, not by `localeCompare`. Locale collation compares letters case-insensitively first (it puts `Microsoft.Addons` before `Microsoft.AVS`, which code-point order reverses), so the JavaScript scanner's record order is modelled only up to this difference. The model also gives both scanners the same directory listing. Node's `readdirSync` lists a directory sorted by name on Unix, while Python's `iterdir` keeps the directory's own order. So records with the same provider name under different services can tie-break differently after the stable name sort, and when several service links are broken the JavaScript scan can report a different one than the model does. Its set of records is modelled exactly.
- `path.join`, `path.resolve` and `Path.resolve` normalisation are not modelled. Paths are strings joined with `/`, and the ancestors of the start directory for `FindRepoRoot` are given as a list.
- `--count` printing and the `--dry-run` and `--help` options are not modelled.
- LeaseFiles.ValidateDuration: the out-of-range error carries the day count as an exact natural number. The script's `parseInt` yields a floating-point number, so its message rounds counts above 2^53 (`P100000000000000000000001D` reports `1e+23`) and reports `Infinity` for counts of more than about 309 digits. Whether the duration is accepted is modelled exactly.
- FetchJs.TableLines: column widths and padding count characters (Unicode scalar values). JavaScript's `.length` and `padEnd` count UTF-16 code units, so a name with a character outside the Basic Multilingual Plane counts two there and one here, and the table's columns (`FetchJs.TableLayout`, `FetchJs.RowLayout`) are modelled only for names without such characters. Python's `len` counts code points, as the model does.
- Text.PadEnd: states only the padded length. The padded content is stated by `SpecTree.Row2Layout` and `SpecTree.Row3Layout`.
- The `lease.yaml` text is modelled as its five lines joined with line breaks. `ReadLeaseYaml` is a reader written for the round trip; the repository does not have one.
- The Python scanners' `main` functions are not modelled. The summary line they print after a list or a table is the same text as the JavaScript one (`SpecTree.TotalLine`).
- `eng/tools/openapi-diff-runner` is not part of this model.
- The label engine that consumes the lease files is not part of this model.
- A few test cases are not restated as example lemmas. Parsing `storage, Microsoft.Storage` and `compute, Microsoft.Compute, [ComputeRP, DiskRP]`, and the two `getLeasePath` examples, are covered by the general lemmas `LeaseFiles.ParseFieldsLine`, `Pipeline.GroupsTail` and `LeaseFiles.LeasePathSegments`.

=== FILE: FetchJs.dfy ===
/** `fetch-resource-providers.js`: the same scan as the Python script, with Node's
    file-system calls, and its own output formats. The scan reads every entry with
    `fs.statSync`, which throws on a broken link where Python's `is_dir` says no; on
    every tree where it does not throw it lists what the Python scan lists. */
module FetchJs {
  import opened Wrappers
  import opened Text
  import Order
  import opened SpecTree
  import FetchPy

  function ServicePath(service: string): string
  {
    SpecificationDir + "/" + service
  }

  function ItemPath(service: string, item: string): string
  {
    RmPath(service) + "/" + item
  }

  /** The inner loop over one `resource-manager` directory. `statSync(item)` runs before
      the name test, so a broken link stops the scan whatever its name; files and
      names without the `Microsoft.` prefix are skipped. */
  function WalkItems(service: string, items: seq<Entry>): (r: Result<seq<Candidate>, ScanError>)
    ensures r.Success? <==> forall k :: 0 <= k < |items| ==> !items[k].node.Dangling?
    ensures r.Failure? ==> exists k :: 0 <= k < |items| && items[k].node.Dangling?
                                       && r.error == BrokenEntry(ItemPath(service, items[k].name))
    ensures r.Success? ==> r.value == FetchPy.WalkItems(service, items)
  {
    if |items| == 0 then Success([])
    else
      var item := items[0];
      if item.node.Dangling? then
        Failure(BrokenEntry(ItemPath(service, item.name)))
      else
        var rest := WalkItems(service, items[1..]);
        assert forall k :: 0 < k < |items| ==> items[k] == items[1..][k - 1];
        if rest.Failure? then
          rest
        else if !item.node.Dir? || !StartsWith(item.name, ProviderPrefix) then
          rest
        else
          Success([Candidate(service, item.name, item.node)] + rest.value)
  }

  /** A service directory the JavaScript scan gets through: it can be stat-ed, its
      `resource-manager` is not a file, and none of that directory's entries is a
      broken link. */
  predicate Readable(service: Entry)
  {
    && !service.node.Dangling?
    && !RmIsFile(service)
    && forall k :: 0 <= k < |RmItems(service)| ==> !RmItems(service)[k].node.Dangling?
  }

  /** The outer loop over `specification`: `statSync(serviceDir)` throws on a broken
      link; a file is skipped, and so is a service without an existing
      `resource-manager`; a `resource-manager` that is a file makes `readdirSync`
      throw. */
  function WalkServices(services: seq<Entry>): (r: Result<seq<Candidate>, ScanError>)
    ensures r.Success? <==> forall i :: 0 <= i < |services| ==> Readable(services[i])
    ensures r.Success? ==> r == FetchPy.WalkServices(services)
  {
    if |services| == 0 then Success([])
    else
      var s := services[0];
      var here: Result<seq<Candidate>, ScanError> :=
        if s.node.Dangling? then Failure(BrokenEntry(ServicePath(s.name)))
        else if s.node.File? then Success([])
        else
          match Child(s.node, ResourceManagerDir)
          case None => Success([])
          case Some(Dangling) => Success([])
          case Some(File) => Failure(NotADirectory(RmPath(s.name)))
          case Some(Dir(items)) => WalkItems(s.name, items);
      assert here.Success? <==> Readable(s) by {
        var rm := Child(s.node, ResourceManagerDir);
        if s.node.Dir? && rm.Some? && rm.value.Dir? {
          assert RmItems(s) == rm.value.entries;
        }
      }
      if here.Failure? then
        Failure(here.error)
      else
        var rest := WalkServices(services[1..]);
        assert forall i :: 0 < i < |services| ==> services[i] == services[1..][i - 1];
        if rest.Failure? then
          rest
        else
          Success(here.value + rest.value)
  }

  /** The scan from the repository root: `existsSync` rules out a missing or broken
      `specification`, and `readdirSync` throws on a file of that name. */
  function Walk(root: Node): (r: Result<seq<Candidate>, ScanError>)
    ensures !Exists(Child(root, SpecificationDir)) ==> r == Failure(SpecificationNotFound)
    ensures Child(root, SpecificationDir) == Some(File) ==> r == Failure(NotADirectory(SpecificationDir))
    ensures r.Success? <==> IsDir(Child(root, SpecificationDir))
                            && forall i :: 0 <= i < |SpecEntries(root)| ==> Readable(SpecEntries(root)[i])
    ensures r.Success? ==> r == FetchPy.Walk(root)
  {
    match Child(root, SpecificationDir)
    case None => Failure(SpecificationNotFound)
    case Some(Dangling) => Failure(SpecificationNotFound)
    case Some(File) => Failure(NotADirectory(SpecificationDir))
    case Some(Dir(services)) =>
      assert SpecEntries(root) == services;
      WalkServices(services)
  }

  /** `findResourceProviders`: wherever it does not throw, the Python scan's result,
      so sorted by name and holding exactly the listed records; and it throws wherever
      the Python scan raises. The final sort is modelled in code-point order; the
      script's `localeCompare` can order names that differ in case otherwise. */
  function Find(root: Node, withGroups: bool): (r: Result<seq<ResourceProvider>, ScanError>)
    ensures r.Success? <==> IsDir(Child(root, SpecificationDir))
                            && forall i :: 0 <= i < |SpecEntries(root)| ==> Readable(SpecEntries(root)[i])
    ensures !Exists(Child(root, SpecificationDir)) ==> r == Failure(SpecificationNotFound)
    ensures r.Success? ==> r == FetchPy.Find(root, withGroups)
    ensures FetchPy.Find(root, withGroups).Failure? ==> r.Failure?
    ensures r.Success? ==> Order.SortedBy(r.value, Name)
    ensures r.Success? ==> forall rp :: rp in r.value <==> Listed(SpecEntries(root), withGroups, rp)
  {
    var cs :- Walk(root);
    Success(SortByName(Select(cs, withGroups)))
  }

  /** A broken link directly under `specification` is skipped by the Python scan and
      stops the JavaScript one. */
  lemma BrokenServiceLink(service: string, withGroups: bool)
    ensures var root := Dir([Entry(SpecificationDir, Dir([Entry(service, Dangling)]))]);
            && FetchPy.Find(root, withGroups) == Success([])
            && Find(root, withGroups) == Failure(BrokenEntry(ServicePath(service)))
  {
    var services := [Entry(service, Dangling)];
    var root := Dir([Entry(SpecificationDir, Dir(services))]);
    assert Child(root, SpecificationDir) == Some(Dir(services));
    assert RmItems(services[0]) == [];
    assert services[1..] == [];
    assert FetchPy.WalkServices([]) == Success([]);
    assert FetchPy.WalkServices(services) == Success([] + []);
  }

  // ---------------------------------------------------------------------------
  // Output

  /** The table of `formatOutput`: a heading, a rule and one row per record, the
      service and name columns as wide as the longest service and the longest name. */
  function TableLines(rps: seq<ResourceProvider>, withGroups: bool): (r: seq<string>)
    requires withGroups ==> forall k :: 0 <= k < |rps| ==> rps[k].serviceGroups.Some?
    ensures |r| == |rps| + 2
    ensures var sw := MaxLength(Services(rps));
            var nw := MaxLength(Names(rps));
            && r[0] == Heading(withGroups, sw, nw) && r[1] == Rule(withGroups, sw, nw)
            && r[2..] == Rows(rps, withGroups, sw, nw)
  {
    var sw := MaxLength(Services(rps));
    var nw := MaxLength(Names(rps));
    [Heading(withGroups, sw, nw), Rule(withGroups, sw, nw)] + Rows(rps, withGroups, sw, nw)
  }

  function Rows(rps: seq<ResourceProvider>, withGroups: bool, sw: nat, nw: nat): (r: seq<string>)
    requires withGroups ==> forall k :: 0 <= k < |rps| ==> rps[k].serviceGroups.Some?
    ensures |r| == |rps| && forall k :: 0 <= k < |rps| ==> r[k] == Row(rps[k], withGroups, sw, nw)
  {
    seq(|rps|, k requires 0 <= k < |rps| => Row(rps[k], withGroups, sw, nw))
  }

  function Heading(withGroups: bool, sw: nat, nw: nat): string
  {
    Row3(ServiceHeader, sw, NameHeader, nw, LastHeader(withGroups))
  }

  /** The rule under the heading: 60 dashes for the groups, 50 for the path. */
  function Rule(withGroups: bool, sw: nat, nw: nat): string
  {
    Row3(Repeat('-', sw), sw, Repeat('-', nw), nw, Repeat('-', if withGroups then 60 else 50))
  }

  function LastHeader(withGroups: bool): string
  {
    if withGroups then "Service Groups" else "Path"
  }

  /** A data row: service, then name, then the groups joined by `, ` or the path. */
  function Row(rp: ResourceProvider, withGroups: bool, sw: nat, nw: nat): string
    requires withGroups ==> rp.serviceGroups.Some?
  {
    Row3(rp.service, sw, rp.name, nw, LastColumn(rp, withGroups))
  }

  function LastColumn(rp: ResourceProvider, withGroups: bool): string
    requires withGroups ==> rp.serviceGroups.Some?
  {
    if withGroups then Join(rp.serviceGroups.value, ", ") else rp.path
  }

  /** One line of the list: `service, name` or `service, name, [g1, g2]`. */
  function ListLine(rp: ResourceProvider, withGroups: bool): string
    requires withGroups ==> rp.serviceGroups.Some?
  {
    if withGroups then rp.service + ", " + rp.name + ", [" + Join(rp.serviceGroups.value, ", ") + "]"
    else rp.service + ", " + rp.name
  }

  function ListLines(rps: seq<ResourceProvider>, withGroups: bool): (r: seq<string>)
    requires withGroups ==> forall k :: 0 <= k < |rps| ==> rps[k].serviceGroups.Some?
    ensures |r| == |rps| && forall k :: 0 <= k < |rps| ==> r[k] == ListLine(rps[k], withGroups)
  {
    seq(|rps|, k requires 0 <= k < |rps| => ListLine(rps[k], withGroups))
  }

  /** `formatOutput`. */
  function FormatOutput(rps: seq<ResourceProvider>, format: Format, withGroups: bool): (r: Output)
    requires withGroups ==> forall k :: 0 <= k < |rps| ==> rps[k].serviceGroups.Some?
    ensures format == Json <==> r == JsonRecords(rps)
    ensures format != Json && |rps| == 0 ==> r == Text(NoneFoundMessage(withGroups))
  {
    if format == Json then JsonRecords(rps)
    else if |rps| == 0 then Text(NoneFoundMessage(withGroups))
    else if format == Table then Text(Join(TableLines(rps, withGroups), "\n"))
    else Text(Join(ListLines(rps, withGroups), "\n"))
  }

  /** The list output has exactly one line per record, in order. */
  lemma ListOutputLines(rps: seq<ResourceProvider>, withGroups: bool)
    requires |rps| > 0 && SingleLineFields(rps)
    requires withGroups ==> forall k :: 0 <= k < |rps| ==> rps[k].serviceGroups.Some?
    ensures var lines := Split(FormatOutput(rps, List, withGroups).text, '\n');
            && |lines| == |rps|
            && forall k :: 0 <= k < |rps| ==> StartsWith(lines[k], rps[k].service + ", " + rps[k].name)
  {
    var lines := ListLines(rps, withGroups);
    forall k | 0 <= k < |rps|
      ensures '\n' !in lines[k] && StartsWith(lines[k], rps[k].service + ", " + rps[k].name)
    {
      ListLineFacts(rps[k], withGroups);
    }
    SplitJoin(lines, '\n');
  }

  /** A list line is one line and starts with `service, name`. */
  lemma ListLineFacts(rp: ResourceProvider, withGroups: bool)
    requires SingleLineRecord(rp)
    requires withGroups ==> rp.serviceGroups.Some?
    ensures '\n' !in ListLine(rp, withGroups) && StartsWith(ListLine(rp, withGroups), rp.service + ", " + rp.name)
  {
    var head := rp.service + ", " + rp.name;
    if withGroups {
      JoinExcludes(GroupsOf(rp), ", ", '\n');
      assert ListLine(rp, withGroups) == head + (", [" + Join(GroupsOf(rp), ", ") + "]");
    }
  }

  lemma TableLinesSingle(rps: seq<ResourceProvider>, withGroups: bool)
    requires SingleLineFields(rps)
    requires withGroups ==> forall k :: 0 <= k < |rps| ==> rps[k].serviceGroups.Some?
    ensures var lines := TableLines(rps, withGroups);
            forall k :: 0 <= k < |lines| ==> '\n' !in lines[k]
  {
    var lines := TableLines(rps, withGroups);
    var sw := MaxLength(Services(rps));
    var nw := MaxLength(Names(rps));
    HeadingSingle(withGroups, sw, nw);
    RowsSingle(rps, withGroups, sw, nw);
    ExcludedFromAll(Heading(withGroups, sw, nw), Rule(withGroups, sw, nw), Rows(rps, withGroups, sw, nw), '\n');
  }

  lemma RowsSingle(rps: seq<ResourceProvider>, withGroups: bool, sw: nat, nw: nat)
    requires SingleLineFields(rps)
    requires withGroups ==> forall k :: 0 <= k < |rps| ==> rps[k].serviceGroups.Some?
    ensures var rows := Rows(rps, withGroups, sw, nw);
            forall k :: 0 <= k < |rows| ==> '\n' !in rows[k]
  {
    forall k | 0 <= k < |rps| ensures '\n' !in Rows(rps, withGroups, sw, nw)[k] {
      RowSingle(rps[k], withGroups, sw, nw);
    }
  }

  lemma HeadingSingle(withGroups: bool, sw: nat, nw: nat)
    ensures '\n' !in Heading(withGroups, sw, nw) && '\n' !in Rule(withGroups, sw, nw)
  {
    HeadingsSingleLine();
    Row3Excludes(ServiceHeader, sw, NameHeader, nw, LastHeader(withGroups), '\n');
    Row3Excludes(Repeat('-', sw), sw, Repeat('-', nw), nw, Repeat('-', if withGroups then 60 else 50), '\n');
  }

  lemma RowSingle(rp: ResourceProvider, withGroups: bool, sw: nat, nw: nat)
    requires SingleLineRecord(rp)
    requires withGroups ==> rp.serviceGroups.Some?
    ensures '\n' !in Row(rp, withGroups, sw, nw)
  {
    JoinExcludes(GroupsOf(rp), ", ", '\n');
    Row3Excludes(rp.service, sw, rp.name, nw, LastColumn(rp, withGroups), '\n');
  }

  /** A row of the JavaScript table: the service in a cell `sw` wide, the name in a
      cell `nw` wide, then the groups joined by `, ` or the path. */
  predicate RowShape(row: string, rp: ResourceProvider, withGroups: bool, sw: nat, nw: nat)
  {
    && Cell(row, rp.service, sw)
    && Cell(row[sw + 2..], rp.name, nw)
    && (withGroups ==> rp.serviceGroups.Some? && row[sw + nw + 4..] == Join(rp.serviceGroups.value, ", "))
    && (!withGroups ==> row[sw + nw + 4..] == rp.path)
  }

  /** The table output has exactly `n + 2` lines, and in every data row the service
      and name columns are padded to the longest service and the longest name. */
  lemma TableLayout(rps: seq<ResourceProvider>, withGroups: bool)
    requires |rps| > 0 && SingleLineFields(rps)
    requires withGroups ==> forall k :: 0 <= k < |rps| ==> rps[k].serviceGroups.Some?
    ensures var lines := Split(FormatOutput(rps, Table, withGroups).text, '\n');
            var sw := MaxLength(Services(rps));
            var nw := MaxLength(Names(rps));
            && |lines| == |rps| + 2
            && forall k :: 0 <= k < |rps| ==> RowShape(lines[k + 2], rps[k], withGroups, sw, nw)
  {
    TableSplit(rps, withGroups);
    TableRows(rps, withGroups);
  }

  /** Splitting the table text at line breaks gives back its lines. */
  lemma TableSplit(rps: seq<ResourceProvider>, withGroups: bool)
    requires |rps| > 0 && SingleLineFields(rps)
    requires withGroups ==> forall k :: 0 <= k < |rps| ==> rps[k].serviceGroups.Some?
    ensures Split(FormatOutput(rps, Table, withGroups).text, '\n') == TableLines(rps, withGroups)
  {
    TableText(rps, withGroups);
    TableLinesSingle(rps, withGroups);
    SplitJoin(TableLines(rps, withGroups), '\n');
  }

  lemma TableText(rps: seq<ResourceProvider>, withGroups: bool)
    requires |rps| > 0
    requires withGroups ==> forall k :: 0 <= k < |rps| ==> rps[k].serviceGroups.Some?
    ensures FormatOutput(rps, Table, withGroups) == Text(Join(TableLines(rps, withGroups), "\n"))
  {
  }

  lemma TableRows(rps: seq<ResourceProvider>, withGroups: bool)
    requires withGroups ==> forall k :: 0 <= k < |rps| ==> rps[k].serviceGroups.Some?
    ensures var lines := TableLines(rps, withGroups);
            forall k :: 0 <= k < |rps| ==>
              RowShape(lines[k + 2], rps[k], withGroups, MaxLength(Services(rps)), MaxLength(Names(rps)))
  {
    var sw := MaxLength(Services(rps));
    var nw := MaxLength(Names(rps));
    WidthsFit(rps);
    forall k | 0 <= k < |rps|
      ensures RowShape(TableLines(rps, withGroups)[k + 2], rps[k], withGroups, sw, nw)
    {
      assert TableLines(rps, withGroups)[k + 2] == TableLines(rps, withGroups)[2..][k];
      RowLayout(rps[k], withGroups, sw, nw);
    }
  }

  lemma RowLayout(rp: ResourceProvider, withGroups: bool, sw: nat, nw: nat)
    requires withGroups ==> rp.serviceGroups.Some?
    requires |rp.service| <= sw && |rp.name| <= nw
    ensures RowShape(Row(rp, withGroups, sw, nw), rp, withGroups, sw, nw)
  {
    Row3Layout(rp.service, sw, rp.name, nw, LastColumn(rp, withGroups));
  }
}

=== FILE: FetchPy.dfy ===
/** `fetch_resource_providers.py`: the scan of the `resource-manager` directories under
    `specification`, and the three output formats. */
module FetchPy {
  import opened Wrappers
  import opened Text
  import Order
  import opened SpecTree

  /** The inner loop over one `resource-manager` directory: entries that are not
      directories (broken links included, as `is_dir` says no) or whose names do
      not start with `Microsoft.` are skipped. */
  function WalkItems(service: string, items: seq<Entry>): (r: seq<Candidate>)
    ensures forall c :: c in r <==> exists k :: 0 <= k < |items| && IsProviderDir(items[k])
                                                 && c == Candidate(service, items[k].name, items[k].node)
  {
    if |items| == 0 then []
    else
      var rest := WalkItems(service, items[1..]);
      assert forall k :: 0 < k < |items| ==> items[k] == items[1..][k - 1];
      var item := items[0];
      if !item.node.Dir? || !StartsWith(item.name, ProviderPrefix) then rest
      else [Candidate(service, item.name, item.node)] + rest
  }

  /** The outer loop over `specification`: a service that is not a directory, or has
      no (existing) `resource-manager`, is skipped; a `resource-manager` that is a
      file makes `iterdir` raise. */
  function WalkServices(services: seq<Entry>): (r: Result<seq<Candidate>, ScanError>)
    ensures r.Success? <==> forall i :: 0 <= i < |services| ==> !RmIsFile(services[i])
    ensures r.Success? ==> forall c :: c in r.value <==> Found(services, c)
  {
    if |services| == 0 then Success([])
    else
      var s := services[0];
      var here: Result<seq<Candidate>, ScanError> :=
        if !s.node.Dir? then Success([])
        else
          match Child(s.node, ResourceManagerDir)
          case None => Success([])
          case Some(Dangling) => Success([])
          case Some(File) => Failure(NotADirectory(RmPath(s.name)))
          case Some(Dir(items)) => Success(WalkItems(s.name, items));
      if here.Failure? then
        Failure(here.error)
      else
        var rest := WalkServices(services[1..]);
        assert forall i :: 0 < i < |services| ==> services[i] == services[1..][i - 1];
        if rest.Failure? then
          rest
        else
          assert here.value == WalkItems(s.name, RmItems(s));
          forall c ensures c in here.value + rest.value <==> Found(services, c) {
            FoundCons(services, c);
          }
          Success(here.value + rest.value)
  }

  /** The scan from the repository root: a missing (or broken) `specification` is
      reported, a `specification` file makes `iterdir` raise. */
  function Walk(root: Node): (r: Result<seq<Candidate>, ScanError>)
    ensures !Exists(Child(root, SpecificationDir)) ==> r == Failure(SpecificationNotFound)
    ensures Child(root, SpecificationDir) == Some(File) ==> r == Failure(NotADirectory(SpecificationDir))
    ensures r.Success? <==> IsDir(Child(root, SpecificationDir))
                            && forall i :: 0 <= i < |SpecEntries(root)| ==> !RmIsFile(SpecEntries(root)[i])
    ensures r.Success? ==> forall c :: c in r.value <==> Found(SpecEntries(root), c)
  {
    match Child(root, SpecificationDir)
    case None => Failure(SpecificationNotFound)
    case Some(Dangling) => Failure(SpecificationNotFound)
    case Some(File) => Failure(NotADirectory(SpecificationDir))
    case Some(Dir(services)) =>
      assert SpecEntries(root) == services;
      WalkServices(services)
  }

  /** `find_resource_providers`: the listed records, sorted by name. */
  function Find(root: Node, withGroups: bool): (r: Result<seq<ResourceProvider>, ScanError>)
    ensures r.Success? <==> IsDir(Child(root, SpecificationDir))
                            && forall i :: 0 <= i < |SpecEntries(root)| ==> !RmIsFile(SpecEntries(root)[i])
    ensures !Exists(Child(root, SpecificationDir)) ==> r == Failure(SpecificationNotFound)
    ensures r.Success? ==> Order.SortedBy(r.value, Name)
    ensures r.Success? ==> forall rp :: rp in r.value <==> Listed(SpecEntries(root), withGroups, rp)
    ensures r.Success? ==> forall k :: 0 <= k < |r.value| ==> WellFormedRecord(r.value[k], withGroups)
  {
    var cs :- Walk(root);
    var rps := SortByName(Select(cs, withGroups));
    SelectSorted(SpecEntries(root), cs, withGroups);
    assert forall k :: 0 <= k < |rps| ==> WellFormedRecord(rps[k], withGroups) by {
      forall k | 0 <= k < |rps| ensures WellFormedRecord(rps[k], withGroups) {
        assert rps[k] in rps;
        ListedIsWellFormed(SpecEntries(root), withGroups, rps[k]);
      }
    }
    Success(rps)
  }

  // ---------------------------------------------------------------------------
  // Output

  /** The table of `format_output`: a heading, a rule and one row per record. With
      groups: name, then the groups joined by `, `; without: name, service, path. The
      name and service columns are as wide as the longest name and service. */
  function TableLines(rps: seq<ResourceProvider>, withGroups: bool): (r: seq<string>)
    requires withGroups ==> forall k :: 0 <= k < |rps| ==> rps[k].serviceGroups.Some?
    ensures |r| == |rps| + 2
    ensures var nw := MaxLength(Names(rps));
            var sw := MaxLength(Services(rps));
            && r[0] == Heading(withGroups, nw, sw) && r[1] == Rule(withGroups, nw, sw)
            && r[2..] == Rows(rps, withGroups, nw, sw)
  {
    var nw := MaxLength(Names(rps));
    var sw := MaxLength(Services(rps));
    [Heading(withGroups, nw, sw), Rule(withGroups, nw, sw)] + Rows(rps, withGroups, nw, sw)
  }

  function Rows(rps: seq<ResourceProvider>, withGroups: bool, nw: nat, sw: nat): (r: seq<string>)
    requires withGroups ==> forall k :: 0 <= k < |rps| ==> rps[k].serviceGroups.Some?
    ensures |r| == |rps| && forall k :: 0 <= k < |rps| ==> r[k] == Row(rps[k], withGroups, nw, sw)
  {
    seq(|rps|, k requires 0 <= k < |rps| => Row(rps[k], withGroups, nw, sw))
  }

  function Heading(withGroups: bool, nw: nat, sw: nat): string
  {
    if withGroups then GroupHeader(nw) else Row3(NameHeader, nw, ServiceHeader, sw, "Path")
  }

  /** The rule under the heading: 60 dashes after the names, or the service column's
      width and then 50 dashes. */
  function Rule(withGroups: bool, nw: nat, sw: nat): string
  {
    if withGroups then Row2(Repeat('-', nw), nw, Repeat('-', 60))
    else Row3(Repeat('-', nw), nw, Repeat('-', sw), sw, Repeat('-', 50))
  }

  function Row(rp: ResourceProvider, withGroups: bool, nw: nat, sw: nat): string
    requires withGroups ==> rp.serviceGroups.Some?
  {
    if withGroups then Row2(rp.name, nw, Join(rp.serviceGroups.value, ", "))
    else Row3(rp.name, nw, rp.service, sw, rp.path)
  }

  /** The list of `format_output`: `name: [g1, g2]` with groups, the name alone without. */
  function ListLines(rps: seq<ResourceProvider>, withGroups: bool): (r: seq<string>)
    requires withGroups ==> forall k :: 0 <= k < |rps| ==> rps[k].serviceGroups.Some?
    ensures |r| == |rps| && forall k :: 0 <= k < |rps| ==> r[k] == ListLine(rps[k], withGroups)
  {
    seq(|rps|, k requires 0 <= k < |rps| => ListLine(rps[k], withGroups))
  }

  function ListLine(rp: ResourceProvider, withGroups: bool): string
    requires withGroups ==> rp.serviceGroups.Some?
  {
    if withGroups then rp.name + ": [" + Join(rp.serviceGroups.value, ", ") + "]" else rp.name
  }

  /** `format_output`. The with-groups formats read each record's `service_groups`,
      which the records of a with-groups scan have. */
  function FormatOutput(rps: seq<ResourceProvider>, format: Format, withGroups: bool): (r: Output)
    requires withGroups ==> forall k :: 0 <= k < |rps| ==> rps[k].serviceGroups.Some?
    ensures format == Json <==> r == JsonRecords(rps)
    ensures format != Json && |rps| == 0 ==> r == Text(NoneFoundMessage(withGroups))
  {
    if format == Json then JsonRecords(rps)
    else if |rps| == 0 then Text(NoneFoundMessage(withGroups))
    else if format == Table then Text(Join(TableLines(rps, withGroups), "\n"))
    else Text(Join(ListLines(rps, withGroups), "\n"))
  }

  /** The list output has one line per record, in order, each starting with the
      record's name; without groups the lines are the names. */
  lemma ListOutputLines(rps: seq<ResourceProvider>, withGroups: bool)
    requires |rps| > 0 && SingleLineFields(rps)
    requires withGroups ==> forall k :: 0 <= k < |rps| ==> rps[k].serviceGroups.Some?
    ensures var lines := Split(FormatOutput(rps, List, withGroups).text, '\n');
            && |lines| == |rps|
            && (forall k :: 0 <= k < |rps| ==> StartsWith(lines[k], rps[k].name))
            && (!withGroups ==> lines == Names(rps))
  {
    var lines := ListLines(rps, withGroups);
    forall k | 0 <= k < |rps|
      ensures '\n' !in lines[k] && StartsWith(lines[k], rps[k].name)
    {
      ListLineFacts(rps[k], withGroups);
    }
    if !withGroups {
      assert lines == Names(rps);
    }
    SplitJoin(lines, '\n');
  }

  /** A list line is one line and starts with the name; without groups it is the name. */
  lemma ListLineFacts(rp: ResourceProvider, withGroups: bool)
    requires SingleLineRecord(rp)
    requires withGroups ==> rp.serviceGroups.Some?
    ensures '\n' !in ListLine(rp, withGroups) && StartsWith(ListLine(rp, withGroups), rp.name)
  {
    if withGroups {
      JoinExcludes(GroupsOf(rp), ", ", '\n');
      assert ListLine(rp, withGroups) == rp.name + (": [" + Join(GroupsOf(rp), ", ") + "]");
    }
  }

  /** The table lines hold no line break when no field does. */
  lemma TableLinesSingle(rps: seq<ResourceProvider>, withGroups: bool)
    requires SingleLineFields(rps)
    requires withGroups ==> forall k :: 0 <= k < |rps| ==> rps[k].serviceGroups.Some?
    ensures var lines := TableLines(rps, withGroups);
            forall k :: 0 <= k < |lines| ==> '\n' !in lines[k]
  {
    var lines := TableLines(rps, withGroups);
    var nw := MaxLength(Names(rps));
    var sw := MaxLength(Services(rps));
    HeadingSingle(withGroups, nw, sw);
    RowsSingle(rps, withGroups, nw, sw);
    ExcludedFromAll(Heading(withGroups, nw, sw), Rule(withGroups, nw, sw), Rows(rps, withGroups, nw, sw), '\n');
  }

  lemma RowsSingle(rps: seq<ResourceProvider>, withGroups: bool, nw: nat, sw: nat)
    requires SingleLineFields(rps)
    requires withGroups ==> forall k :: 0 <= k < |rps| ==> rps[k].serviceGroups.Some?
    ensures var rows := Rows(rps, withGroups, nw, sw);
            forall k :: 0 <= k < |rows| ==> '\n' !in rows[k]
  {
    forall k | 0 <= k < |rps| ensures '\n' !in Rows(rps, withGroups, nw, sw)[k] {
      RowSingle(rps[k], withGroups, nw, sw);
    }
  }

  lemma HeadingSingle(withGroups: bool, nw: nat, sw: nat)
    ensures '\n' !in Heading(withGroups, nw, sw) && '\n' !in Rule(withGroups, nw, sw)
  {
    HeadingsSingleLine();
    if withGroups {
      Row2Excludes(NameHeader, nw, "Service Groups", '\n');
      Row2Excludes(Repeat('-', nw), nw, Repeat('-', 60), '\n');
    } else {
      Row3Excludes(NameHeader, nw, ServiceHeader, sw, "Path", '\n');
      Row3Excludes(Repeat('-', nw), nw, Repeat('-', sw), sw, Repeat('-', 50), '\n');
    }
  }

  lemma RowSingle(rp: ResourceProvider, withGroups: bool, nw: nat, sw: nat)
    requires SingleLineRecord(rp)
    requires withGroups ==> rp.serviceGroups.Some?
    ensures '\n' !in Row(rp, withGroups, nw, sw)
  {
    if withGroups {
      JoinExcludes(GroupsOf(rp), ", ", '\n');
      Row2Excludes(rp.name, nw, Join(GroupsOf(rp), ", "), '\n');
    } else {
      Row3Excludes(rp.name, nw, rp.service, sw, rp.path, '\n');
    }
  }

  /** The table output has a header, a separator and one row per record. Every row
      holds the name in a cell as wide as the widest name; after it come the groups
      joined by `, `, or the service in a cell as wide as the widest service and then
      the path. */
  lemma TableLayout(rps: seq<ResourceProvider>, withGroups: bool)
    requires |rps| > 0 && SingleLineFields(rps)
    requires withGroups ==> forall k :: 0 <= k < |rps| ==> rps[k].serviceGroups.Some?
    ensures var lines := Split(FormatOutput(rps, Table, withGroups).text, '\n');
            var nw := MaxLength(Names(rps));
            var sw := MaxLength(Services(rps));
            && |lines| == |rps| + 2
            && (withGroups ==> lines[0] == GroupHeader(nw))
            && forall k :: 0 <= k < |rps| ==> RowShape(lines[k + 2], rps[k], withGroups, nw, sw)
  {
    TableSplit(rps, withGroups);
    TableRows(rps, withGroups);
  }

  /** Splitting the table text at line breaks gives back its lines. */
  lemma TableSplit(rps: seq<ResourceProvider>, withGroups: bool)
    requires |rps| > 0 && SingleLineFields(rps)
    requires withGroups ==> forall k :: 0 <= k < |rps| ==> rps[k].serviceGroups.Some?
    ensures Split(FormatOutput(rps, Table, withGroups).text, '\n') == TableLines(rps, withGroups)
  {
    TableText(rps, withGroups);
    TableLinesSingle(rps, withGroups);
    SplitJoin(TableLines(rps, withGroups), '\n');
  }

  lemma TableText(rps: seq<ResourceProvider>, withGroups: bool)
    requires |rps| > 0
    requires withGroups ==> forall k :: 0 <= k < |rps| ==> rps[k].serviceGroups.Some?
    ensures FormatOutput(rps, Table, withGroups) == Text(Join(TableLines(rps, withGroups), "\n"))
  {
  }

  /** A table row of `rp`: the name in a cell `nw` wide, then the groups joined by
      `, `, or the service in a cell `sw` wide and then the path. */
  predicate RowShape(row: string, rp: ResourceProvider, withGroups: bool, nw: nat, sw: nat)
  {
    && Cell(row, rp.name, nw)
    && (withGroups ==> rp.serviceGroups.Some? && row[nw + 2..] == Join(rp.serviceGroups.value, ", "))
    && (!withGroups ==> Cell(row[nw + 2..], rp.service, sw) && row[nw + sw + 4..] == rp.path)
  }

  lemma TableRows(rps: seq<ResourceProvider>, withGroups: bool)
    requires withGroups ==> forall k :: 0 <= k < |rps| ==> rps[k].serviceGroups.Some?
    ensures var lines := TableLines(rps, withGroups);
            var nw := MaxLength(Names(rps));
            var sw := MaxLength(Services(rps));
            && (withGroups ==> lines[0] == GroupHeader(nw))
            && forall k :: 0 <= k < |rps| ==> RowShape(lines[k + 2], rps[k], withGroups, nw, sw)
  {
    var nw := MaxLength(Names(rps));
    var sw := MaxLength(Services(rps));
    WidthsFit(rps);
    forall k | 0 <= k < |rps|
      ensures RowShape(TableLines(rps, withGroups)[k + 2], rps[k], withGroups, nw, sw)
    {
      assert TableLines(rps, withGroups)[k + 2] == TableLines(rps, withGroups)[2..][k];
      RowLayout(rps[k], withGroups, nw, sw);
    }
  }

  lemma RowLayout(rp: ResourceProvider, withGroups: bool, nw: nat, sw: nat)
    requires withGroups ==> rp.serviceGroups.Some?
    requires |rp.name| <= nw && |rp.service| <= sw
    ensures RowShape(Row(rp, withGroups, nw, sw), rp, withGroups, nw, sw)
  {
    if withGroups {
      Row2Layout(rp.name, nw, Join(rp.serviceGroups.value, ", "));
    } else {
      Row3Layout(rp.name, nw, rp.service, sw, rp.path);
    }
  }

  /** The heading line of the with-groups table. */
  function GroupHeader(w: nat): string
  {
    Row2(NameHeader, w, "Service Groups")
  }

  /** The heading's two-space gap sits at column `w`, where the rows' gap sits,
      exactly when the widest name is at least as wide as the heading's first word:
      with only short names the heading `Service Groups` is pushed to the right of
      the groups it heads. */
  lemma HeaderGap(w: nat)
    ensures var header := GroupHeader(w);
            |NameHeader| <= w <==> (|header| >= w + 2 && header[w..w + 2] == "  ")
  {
    var header := GroupHeader(w);
    Row3IsNested(NameHeader, w, NameHeader, w, "Service Groups");
    assert header == PadEnd(NameHeader, w) + "  " + "Service Groups";
    assert |header| >= w + 2;
    TwoSpaces(header, w);
    if |NameHeader| <= w {
      WideHeaderGap(w);
    } else {
      NarrowHeaderGap(w);
    }
  }

  lemma TwoSpaces(s: string, i: nat)
    requires i + 2 <= |s|
    ensures s[i..i + 2] == "  " <==> s[i] == ' ' && s[i + 1] == ' '
  {
    if s[i] == ' ' && s[i + 1] == ' ' {
      assert s[i..i + 2] == [s[i], s[i + 1]];
    }
  }

  /** With a wide name column, the heading's gap is the padding's last space and
      the first of the two that follow. */
  lemma WideHeaderGap(w: nat)
    requires |NameHeader| <= w
    ensures var header := PadEnd(NameHeader, w) + "  " + "Service Groups";
            |header| >= w + 2 && header[w] == ' ' && header[w + 1] == ' '
  {
  }

  lemma NarrowHeaderGap(w: nat)
    requires w < |NameHeader|
    ensures var header := PadEnd(NameHeader, w) + "  " + "Service Groups";
            header[w] != ' ' || header[w + 1] != ' '
  {
    var header := PadEnd(NameHeader, w) + "  " + "Service Groups";
    NameHeaderSingleSpaced();
    assert header[w] == NameHeader[w];
    if w + 1 < |NameHeader| { assert header[w + 1] == NameHeader[w + 1]; }
  }

  /** `Resource Provider` holds no two spaces in a row and ends in a letter. */
  lemma NameHeaderSingleSpaced()
    ensures forall i :: 0 <= i < |NameHeader| - 1 ==> NameHeader[i] != ' ' || NameHeader[i + 1] != ' '
    ensures |NameHeader| == 17 && NameHeader[16] != ' '
  {
  }
}

=== FILE: FetchWithoutPy.dfy ===
/** `fetch_rp_without_service_groups.py`: the older, without-groups-only script. Its
    walk is the same as `fetch_resource_providers.py`'s; its selection keeps the
    resource providers with no service group and a version directory; its list format
    is `name (service)`, and an empty result gives the same message in list and table
    format. */
module FetchWithoutPy {
  import opened Wrappers
  import opened Text
  import Order
  import opened SpecTree
  import FetchPy

  /** The test of the inner loop: no service-group subdirectory, and a `stable` or
      `preview` child. */
  predicate Bare(dir: Node)
  {
    dir.Dir? && |ServiceGroups(dir.entries)| == 0 && HasVersionDirectories(dir)
  }

  /** The records the inner loop appends, in walk order. */
  function SelectBare(cs: seq<Candidate>): (r: seq<ResourceProvider>)
    ensures forall rp :: rp in r <==>
              exists k :: 0 <= k < |cs| && Bare(cs[k].dir)
                          && rp == ResourceProvider(cs[k].name, RelativePath(cs[k].service, cs[k].name), cs[k].service, None)
  {
    if |cs| == 0 then []
    else
      var rest := SelectBare(cs[1..]);
      assert forall k :: 0 < k < |cs| ==> cs[k] == cs[1..][k - 1];
      var c := cs[0];
      if Bare(c.dir) then
        [ResourceProvider(c.name, RelativePath(c.service, c.name), c.service, None)] + rest
      else
        rest
  }

  /** This script's selection is the without-groups selection of the general one. */
  lemma {:induction false} SelectBareIsWithoutGroups(cs: seq<Candidate>)
    ensures SelectBare(cs) == Select(cs, false)
  {
    if |cs| > 0 {
      SelectBareIsWithoutGroups(cs[1..]);
    }
  }

  /** `find_resource_providers_without_service_groups`. */
  function Find(root: Node): (r: Result<seq<ResourceProvider>, ScanError>)
    ensures r == FetchPy.Find(root, false)
    ensures !Exists(Child(root, SpecificationDir)) ==> r == Failure(SpecificationNotFound)
    ensures r.Success? ==> Order.SortedBy(r.value, Name)
    ensures r.Success? ==> forall rp :: rp in r.value <==> Listed(SpecEntries(root), false, rp)
  {
    var cs :- FetchPy.Walk(root);
    SelectBareIsWithoutGroups(cs);
    Success(SortByName(SelectBare(cs)))
  }

  // ---------------------------------------------------------------------------
  // Output

  /** `f"{rp['name']} ({rp['service']})"` */
  function ListLine(rp: ResourceProvider): string
  {
    rp.name + " (" + rp.service + ")"
  }

  /** `format_output`: JSON as it is; otherwise the fixed message for an empty list;
      the table of the general script's without-groups mode; or one line per record. */
  function FormatOutput(rps: seq<ResourceProvider>, format: Format): (r: Output)
    ensures format == Json <==> r == JsonRecords(rps)
    ensures format != Json && |rps| == 0 ==> r == Text(NoneFoundMessage(false))
    ensures format != List ==> r == FetchPy.FormatOutput(rps, format, false)
  {
    if format == Json then JsonRecords(rps)
    else if |rps| == 0 then Text(NoneFoundMessage(false))
    else if format == Table then Text(Join(FetchPy.TableLines(rps, false), "\n"))
    else Text(Join(seq(|rps|, k requires 0 <= k < |rps| => ListLine(rps[k])), "\n"))
  }

  /** The inverse of `ListLine` for names without a space: the name runs to the first
      space, the service sits between ` (` and the closing `)`. */
  function ReadListLine(line: string): (r: Option<(string, string)>)
  {
    var i := IndexOf(line, ' ');
    if i + 3 <= |line| && line[i + 1] == '(' && line[|line| - 1] == ')' then
      Some((line[..i], line[i + 2..|line| - 1]))
    else
      None
  }

  lemma ListLineRoundTrip(rp: ResourceProvider)
    requires ' ' !in rp.name
    ensures ReadListLine(ListLine(rp)) == Some((rp.name, rp.service))
  {
    var line := ListLine(rp);
    assert line == rp.name + [' '] + ("(" + rp.service + ")");
    IndexOfAfter(rp.name, ' ', "(" + rp.service + ")");
    assert line[..|rp.name|] == rp.name;
    assert line[|rp.name| + 2..|line| - 1] == rp.service;
  }

  /** The list output, the count `--count` prints and the JSON output all have one
      item per record, and each list line reads back as the record's name and
      service. */
  lemma ListOutputLines(rps: seq<ResourceProvider>)
    requires |rps| > 0 && SingleLineFields(rps)
    requires forall k :: 0 <= k < |rps| ==> ' ' !in rps[k].name
    ensures var lines := Split(FormatOutput(rps, List).text, '\n');
            && |lines| == |rps| == |FormatOutput(rps, Json).records|
            && forall k :: 0 <= k < |rps| ==> ReadListLine(lines[k]) == Some((rps[k].name, rps[k].service))
  {
    var lines := seq(|rps|, k requires 0 <= k < |rps| => ListLine(rps[k]));
    forall k | 0 <= k < |rps|
      ensures '\n' !in lines[k] && ReadListLine(lines[k]) == Some((rps[k].name, rps[k].service))
    {
      ListLineRoundTrip(rps[k]);
      assert lines[k] == rps[k].name + " (" + rps[k].service + ")";
    }
    SplitJoin(lines, '\n');
  }
}

=== FILE: LeaseFiles.dfy ===
/** The pure rules of `generate-lease-files.js`: validation of the lease parameters,
    the line grammar of its input file, the `lease.yaml` text, the path a lease file
    is written to, and the plan of files one resource-provider entry produces.

    The clock is a parameter (`today`), and writing files is replaced by returning
    the planned `(path, content)` pairs. */
module LeaseFiles {
  import opened Wrappers
  import opened Text
  import Order

  const DefaultDuration: string := "P180D"
  const MaxDurationDays: nat := 180

  /** The messages the script throws, one constructor per `throw`. */
  datatype LeaseError =
    | InvalidDateFormat(date: string)
    | StartDateInPast(date: string)
    | InvalidDurationFormat(duration: string)
    | DurationOutOfRange(days: nat)
    | ResourceProviderNotCapitalised(resourceProvider: string)
    | ServiceNameNotLowercase(service: string)

  /** One entry of the input: `{ service, resourceProvider, serviceGroups }`. */
  datatype LeaseEntry = LeaseEntry(service: string, resourceProvider: string, serviceGroups: seq<string>)

  /** The four fields of a `lease.yaml` file. */
  datatype Lease = Lease(resourceProvider: string, startdate: string, duration: string, reviewer: string)

  /** A file `processEntry` would create, with its full path and text. */
  datatype PlannedFile = PlannedFile(path: string, content: string)

  // ---------------------------------------------------------------------------
  // Start date

  /** `/^\d{4}-\d{2}-\d{2}$/` */
  predicate IsDatePattern(s: string)
  {
    && |s| == 10 && s[4] == '-' && s[7] == '-'
    && IsDigits(s[..4]) && IsDigits(s[5..7]) && IsDigits(s[8..])
  }

  /** `validateStartDate`, with the caller's current date `today` (as `YYYY-MM-DD`)
      in place of the clock. A well-formed date before `today` is in the past; `today`
      itself and later dates are accepted and returned unchanged. */
  function ValidateStartDate(date: string, today: string): (r: Result<string, LeaseError>)
    ensures !IsDatePattern(date) <==> r == Failure(InvalidDateFormat(date))
    ensures IsDatePattern(date) ==> (r.Success? <==> !Order.Less(date, today))
    ensures r.Success? ==> r.value == date
    ensures r.Failure? ==> r.error in {InvalidDateFormat(date), StartDateInPast(date)}
  {
    if !IsDatePattern(date) then Failure(InvalidDateFormat(date))
    else if Order.Less(date, today) then Failure(StartDateInPast(date))
    else Success(date)
  }

  function Year(s: string): nat requires IsDatePattern(s) { DigitsValue(s[..4]) }
  function Month(s: string): nat requires IsDatePattern(s) { DigitsValue(s[5..7]) }
  function Day(s: string): nat requires IsDatePattern(s) { DigitsValue(s[8..]) }

  /** Calendar order on (year, month, day). */
  predicate Earlier(a: string, b: string)
    requires IsDatePattern(a) && IsDatePattern(b)
  {
    || Year(a) < Year(b)
    || (Year(a) == Year(b) && Month(a) < Month(b))
    || (Year(a) == Year(b) && Month(a) == Month(b) && Day(a) < Day(b))
  }

  /** Comparing two `YYYY-MM-DD` strings as text is comparing them as dates, which is
      what the script's `dateObj < today` does for real dates. */
  lemma DateTextOrderIsCalendarOrder(a: string, b: string)
    requires IsDatePattern(a) && IsDatePattern(b)
    ensures Order.Less(a, b) <==> Earlier(a, b)
  {
    DateTextOrder(a, b);
    DateTextEquality(a, b);
    FixedWidthOrder(a[..4], b[..4]);
    FixedWidthOrder(a[5..7], b[5..7]);
    FixedWidthOrder(a[8..], b[8..]);
  }

  /** Text order on two dates compares the years, then the months, then the days, as
      text: the dashes sit at the same places and are equal. */
  lemma DateTextOrder(a: string, b: string)
    requires IsDatePattern(a) && IsDatePattern(b)
    ensures Order.LessEq(a, b)
            <==> Order.Less(a[..4], b[..4])
                 || (a[..4] == b[..4] && (Order.Less(a[5..7], b[5..7])
                                          || (a[5..7] == b[5..7] && Order.LessEq(a[8..], b[8..]))))
  {
    assert a == a[..4] + a[4..];
    assert b == b[..4] + b[4..];
    LexConcat(a[..4], a[4..], b[..4], b[4..]);
    assert a[4..] == [a[4]] + a[5..];
    assert b[4..] == [b[4]] + b[5..];
    LexConcat([a[4]], a[5..], [b[4]], b[5..]);
    assert a[5..] == a[5..7] + a[7..];
    assert b[5..] == b[5..7] + b[7..];
    LexConcat(a[5..7], a[7..], b[5..7], b[7..]);
    assert a[7..] == [a[7]] + a[8..];
    assert b[7..] == [b[7]] + b[8..];
    LexConcat([a[7]], a[8..], [b[7]], b[8..]);
  }

  /** Two dates are the same text exactly when year, month and day are. */
  lemma DateTextEquality(a: string, b: string)
    requires IsDatePattern(a) && IsDatePattern(b)
    ensures a == b <==> a[..4] == b[..4] && a[5..7] == b[5..7] && a[8..] == b[8..]
  {
    if a[..4] == b[..4] && a[5..7] == b[5..7] && a[8..] == b[8..] {
      assert a == a[..4] + [a[4]] + a[5..7] + [a[7]] + a[8..];
      assert b == b[..4] + [b[4]] + b[5..7] + [b[7]] + b[8..];
    }
  }

  /** Lexicographic order on `x + r` compares the equally long heads first. */
  lemma {:induction false} LexConcat(x1: string, r1: string, x2: string, r2: string)
    requires |x1| == |x2|
    ensures Order.LessEq(x1 + r1, x2 + r2) <==> (Order.Less(x1, x2) || (x1 == x2 && Order.LessEq(r1, r2)))
  {
    if |x1| == 0 {
      assert x1 + r1 == r1 && x2 + r2 == r2;
      Order.LessEqReflexive(x1);
    } else {
      assert (x1 + r1)[1..] == x1[1..] + r1;
      assert (x2 + r2)[1..] == x2[1..] + r2;
      LexConcat(x1[1..], r1, x2[1..], r2);
      assert x1 == [x1[0]] + x1[1..];
      assert x2 == [x2[0]] + x2[1..];
    }
  }

  /** For digit strings of one width, text order is numeric order. */
  lemma {:induction false} FixedWidthOrder(x: string, y: string)
    requires IsDigits(x) && IsDigits(y) && |x| == |y|
    ensures Order.Less(x, y) <==> DigitsValue(x) < DigitsValue(y)
    ensures x == y <==> DigitsValue(x) == DigitsValue(y)
    decreases |x|
  {
    if |x| > 0 {
      var n := |x| - 1;
      assert x == x[..n] + [x[n]];
      assert y == y[..n] + [y[n]];
      FixedWidthOrder(x[..n], y[..n]);
      LexConcat(x[..n], [x[n]], y[..n], [y[n]]);
      assert Order.LessEq([x[n]], [y[n]]) <==> x[n] <= y[n];
      assert DigitValue(x[n]) < DigitValue(y[n]) <==> x[n] < y[n];
    }
  }

  // ---------------------------------------------------------------------------
  // Duration

  /** `/^P(\d+)D$/i` */
  predicate IsDurationSyntax(d: string)
  {
    && |d| >= 3
    && (d[0] == 'P' || d[0] == 'p')
    && (d[|d| - 1] == 'D' || d[|d| - 1] == 'd')
    && IsDigits(d[1..|d| - 1])
  }

  /** `parseInt(match[1], 10)` */
  function DurationDays(d: string): nat
    requires IsDurationSyntax(d)
  {
    DigitsValue(d[1..|d| - 1])
  }

  /** `toUpperCase` on the ASCII letters, which is all an accepted duration holds. */
  function UpperAscii(s: string): (r: string)
  {
    seq(|s|, i requires 0 <= i < |s| =>
      if IsLowerAscii(s[i]) then (s[i] as int - 32) as char else s[i])
  }

  /** `validateDuration`: `P<digits>D` in either case with 1 to 180 days, returned with
      upper-case `P` and `D` and the digits as written. */
  function ValidateDuration(d: string): (r: Result<string, LeaseError>)
    ensures !IsDurationSyntax(d) <==> r == Failure(InvalidDurationFormat(d))
    ensures r.Success? <==> IsDurationSyntax(d) && 1 <= DurationDays(d) <= MaxDurationDays
    ensures IsDurationSyntax(d) && r.Failure? ==> r.error == DurationOutOfRange(DurationDays(d))
    ensures r.Success? ==> r.value == "P" + d[1..|d| - 1] + "D"
  {
    if !IsDurationSyntax(d) then
      Failure(InvalidDurationFormat(d))
    else if DurationDays(d) == 0 || DurationDays(d) > MaxDurationDays then
      Failure(DurationOutOfRange(DurationDays(d)))
    else
      var r := UpperAscii(d);
      assert r == "P" + d[1..|d| - 1] + "D";
      Success(r)
  }

  /** Validating an accepted duration again accepts it unchanged. */
  lemma ValidateDurationIdempotent(d: string)
    requires ValidateDuration(d).Success?
    ensures ValidateDuration(ValidateDuration(d).value) == ValidateDuration(d)
  {
    var u := ValidateDuration(d).value;
    assert u[1..|u| - 1] == d[1..|d| - 1];
  }

  /** `P<n>D` is accepted exactly for 1 <= n <= 180, and reports `n` otherwise. */
  lemma DurationOfDays(n: nat)
    ensures var d := "P" + NatToString(n) + "D";
            ValidateDuration(d) == if 1 <= n <= MaxDurationDays then Success(d) else Failure(DurationOutOfRange(n))
  {
    var d := "P" + NatToString(n) + "D";
    assert d[1..|d| - 1] == NatToString(n);
  }

  // ---------------------------------------------------------------------------
  // Resource provider and service names

  /** `/^[A-Z]/` */
  predicate StartsWithCapital(part: string)
  {
    |part| > 0 && IsUpperAscii(part[0])
  }

  predicate AllCapitalised(parts: seq<string>)
  {
    forall k :: 0 <= k < |parts| ==> StartsWithCapital(parts[k])
  }

  /** `validateResourceProvider`: every `.`-separated part must start with a capital
      letter; the name is returned unchanged. */
  function ValidateResourceProvider(rp: string): (r: Result<string, LeaseError>)
    ensures r.Success? <==> AllCapitalised(Split(rp, '.'))
    ensures r.Success? ==> r.value == rp
    ensures r.Failure? ==> r.error == ResourceProviderNotCapitalised(rp)
  {
    if AllCapitalised(Split(rp, '.')) then Success(rp) else Failure(ResourceProviderNotCapitalised(rp))
  }

  /** The same rule without splitting: the name is non-empty, starts with a capital,
      and every dot is followed by a capital (so no part is empty). */
  predicate CapitalAfterEveryDot(rp: string)
  {
    && |rp| > 0 && IsUpperAscii(rp[0])
    && forall i :: 0 <= i < |rp| && rp[i] == '.' ==> i + 1 < |rp| && IsUpperAscii(rp[i + 1])
  }

  lemma ResourceProviderShape(rp: string)
    ensures ValidateResourceProvider(rp).Success? <==> CapitalAfterEveryDot(rp)
  {
    SplitCapitalised(rp);
  }

  lemma {:induction false} SplitCapitalised(s: string)
    ensures AllCapitalised(Split(s, '.')) <==> CapitalAfterEveryDot(s)
    decreases |s|
  {
    var i := IndexOf(s, '.');
    if i < |s| {
      SplitCapitalised(s[i + 1..]);
      CapitalisedParts(s, i);
      CapitalAfterFirstDot(s, i);
    } else {
      assert Split(s, '.') == [s];
    }
  }

  /** Past the first dot: the parts are the first part and the parts of the rest. */
  lemma CapitalisedParts(s: string, i: nat)
    requires i == IndexOf(s, '.') < |s|
    ensures AllCapitalised(Split(s, '.')) <==> StartsWithCapital(s[..i]) && AllCapitalised(Split(s[i + 1..], '.'))
  {
    var parts := Split(s, '.');
    var tail := Split(s[i + 1..], '.');
    assert parts == [s[..i]] + tail;
    assert parts[0] == s[..i];
    assert forall k :: 0 < k < |parts| ==> parts[k] == tail[k - 1];
  }

  /** Past the first dot: a capital after every dot of `s` is a capital starting the
      first part, and a capital after every dot of the rest. */
  lemma CapitalAfterFirstDot(s: string, i: nat)
    requires i == IndexOf(s, '.') < |s|
    ensures CapitalAfterEveryDot(s) <==> StartsWithCapital(s[..i]) && CapitalAfterEveryDot(s[i + 1..])
  {
    var rest := s[i + 1..];
    if CapitalAfterEveryDot(s) {
      assert i > 0;
      forall j | 0 <= j < |rest| && rest[j] == '.'
        ensures j + 1 < |rest| && IsUpperAscii(rest[j + 1])
      {
        assert s[i + 1 + j] == '.';
      }
    }
    if StartsWithCapital(s[..i]) && CapitalAfterEveryDot(rest) {
      forall j | 0 <= j < |s| && s[j] == '.'
        ensures j + 1 < |s| && IsUpperAscii(s[j + 1])
      {
        if j > i {
          assert rest[j - i - 1] == '.';
        }
      }
    }
  }

  predicate IsLowerAlnum(c: char)
  {
    IsLowerAscii(c) || IsAsciiDigit(c)
  }

  /** `validateServiceName`: `/^[a-z0-9]+$/`, returned unchanged. */
  function ValidateServiceName(service: string): (r: Result<string, LeaseError>)
    ensures r.Success? <==> |service| > 0 && forall i :: 0 <= i < |service| ==> IsLowerAlnum(service[i])
    ensures r.Success? ==> r.value == service
    ensures r.Failure? ==> r.error == ServiceNameNotLowercase(service)
  {
    if |service| > 0 && forall i :: 0 <= i < |service| ==> IsLowerAlnum(service[i]) then
      Success(service)
    else
      Failure(ServiceNameNotLowercase(service))
  }

  /** A valid service name is a plain field: trimmed, with no separator of the input
      grammar, no line break and no path separator, and not a comment. */
  lemma ValidServiceNameIsPlain(service: string)
    requires ValidateServiceName(service).Success?
    ensures |service| > 0 && IsTrimmed(service) && service[0] != '#'
    ensures ',' !in service && '[' !in service && ']' !in service
    ensures '\n' !in service && '/' !in service
  {
  }

  // ---------------------------------------------------------------------------
  // Input lines

  /** `s.split(',').map(s => s.trim()).filter(Boolean)` */
  function SplitGroups(g: string): (r: seq<string>)
    ensures forall k :: 0 <= k < |r| ==> |r[k]| > 0 && IsTrimmed(r[k]) && ',' !in r[k]
    ensures ']' !in g ==> forall k :: 0 <= k < |r| ==> ']' !in r[k]
  {
    var parts := Split(g, ',');
    KeepExcludes(parts, ',');
    assert ']' !in g ==> forall k :: 0 <= k < |KeepNonEmptyTrimmed(parts)| ==> ']' !in KeepNonEmptyTrimmed(parts)[k] by {
      if ']' !in g {
        SplitExcludes(g, ',', ']');
        KeepExcludes(parts, ']');
      }
    }
    KeepNonEmptyTrimmed(parts)
  }

  /** The trimmed parts that are not empty, in order. */
  function KeepNonEmptyTrimmed(parts: seq<string>): (r: seq<string>)
    ensures forall k :: 0 <= k < |r| ==> |r[k]| > 0 && IsTrimmed(r[k])
    ensures forall k :: 0 <= k < |parts| && |Trim(parts[k])| > 0 ==> Trim(parts[k]) in r
    ensures forall x :: x in r ==> exists k :: 0 <= k < |parts| && x == Trim(parts[k])
  {
    if |parts| == 0 then []
    else
      var t := Trim(parts[0]);
      var rest := KeepNonEmptyTrimmed(parts[1..]);
      if |t| == 0 then rest else [t] + rest
  }

  lemma {:induction false} KeepExcludes(parts: seq<string>, c: char)
    requires forall k :: 0 <= k < |parts| ==> c !in parts[k]
    ensures forall k :: 0 <= k < |KeepNonEmptyTrimmed(parts)| ==> c !in KeepNonEmptyTrimmed(parts)[k]
  {
    if |parts| > 0 {
      TrimExcludes(parts[0], c);
      KeepExcludes(parts[1..], c);
    }
  }

  /** A comma-free piece gives its trimmed text as the one group, or none when
      that is empty. */
  lemma SplitGroupsPiece(a: string)
    requires ',' !in a
    ensures SplitGroups(a) == if |Trim(a)| > 0 then [Trim(a)] else []
  {
    SplitOne(a, ',');
    assert [a][1..] == [];
    assert KeepNonEmptyTrimmed([a][1..]) == [];
  }

  /** The groups of `a,b` are those of `a` followed by those of `b`. */
  lemma SplitGroupsComma(a: string, b: string)
    requires ',' !in a
    ensures SplitGroups(a + "," + b) == SplitGroups(a) + SplitGroups(b)
  {
    SplitCons(a, ',', b);
    SplitGroupsPiece(a);
    var parts := [a] + Split(b, ',');
    assert parts[1..] == Split(b, ',');
  }

  /** `parseInputLine`: `null` for a blank line, a `#` comment, or a line the grammar
      `service, RP[, [g1, g2, ...]]` rejects (every line without a comma among them);
      otherwise the trimmed fields, with the service taken from the start of the line. */
  function ParseInputLine(raw: string): (r: Option<LeaseEntry>)
    ensures r.Some? <==> IsEntryLine(Trim(raw))
    ensures |Trim(raw)| == 0 || Trim(raw)[0] == '#' ==> r.None?
    ensures ',' !in raw ==> r.None?
    ensures r.Some? ==> WellFormedEntry(r.value) && r.value.service[0] == Trim(raw)[0]
  {
    var line := Trim(raw);
    assert ',' !in raw ==> ',' !in line by {
      if ',' !in raw {
        TrimExcludes(raw, ',');
      }
    }
    if |line| == 0 || line[0] == '#' then None else MatchEntry(line)
  }

  /** What a parsed entry looks like: a non-empty trimmed service without commas, a
      trimmed resource provider without `,` or `[`, and non-empty trimmed groups
      without `,` or `]`. */
  predicate WellFormedEntry(e: LeaseEntry)
  {
    && |e.service| > 0 && IsTrimmed(e.service) && ',' !in e.service
    && IsTrimmed(e.resourceProvider) && ',' !in e.resourceProvider && '[' !in e.resourceProvider
    && forall k :: 0 <= k < |e.serviceGroups| ==>
         |e.serviceGroups[k]| > 0 && IsTrimmed(e.serviceGroups[k])
         && ',' !in e.serviceGroups[k] && ']' !in e.serviceGroups[k]
  }

  /** The optional last part of the line grammar: a comma, white space, and the
      bracketed groups `[inner]` closing the line, with at least one character and
      no `]` between the brackets. */
  ghost predicate Bracketed(tail: string, ws: string, inner: string)
  {
    tail == "," + ws + "[" + inner + "]" && AllSpace(ws) && |inner| > 0 && ']' !in inner
  }

  /** What may follow the resource-provider field: nothing, or bracketed groups. */
  ghost predicate IsGroupsTail(tail: string)
  {
    |tail| == 0 || exists ws, inner :: Bracketed(tail, ws, inner)
  }

  /** `line` reads as `service,field` and a groups tail: the service is non-empty
      without a comma, the field is non-empty without `,` or `[`. */
  ghost predicate LineFields(line: string, service: string, field: string, tail: string)
  {
    && line == service + "," + field + tail
    && |service| > 0 && ',' !in service
    && |field| > 0 && ',' !in field && '[' !in field
    && IsGroupsTail(tail)
  }

  /** A trimmed line the grammar accepts: not a comment, and made of fields. */
  ghost predicate IsEntryLine(line: string)
  {
    |line| > 0 && line[0] != '#' && exists service, field, tail :: LineFields(line, service, field, tail)
  }

  /** A bracketed tail determines its groups: they are what `\s*\[` leaves before
      the closing bracket. */
  lemma BracketedTail(tail: string)
    requires |tail| > 0
    ensures forall ws, inner :: Bracketed(tail, ws, inner) ==>
              var b := tail[1..][SpacePrefix(tail[1..])..];
              && tail[0] == ','
              && |b| == |inner| + 2 && b[0] == '[' && b[|b| - 1] == ']' && b[1..|b| - 1] == inner
  {
    forall ws, inner | Bracketed(tail, ws, inner)
      ensures var b := tail[1..][SpacePrefix(tail[1..])..];
              && tail[0] == ','
              && |b| == |inner| + 2 && b[0] == '[' && b[|b| - 1] == ']' && b[1..|b| - 1] == inner
    {
      var b := "[" + inner + "]";
      assert tail[1..] == ws + b;
      SpacePrefixAfter(ws, b);
      assert tail[1..][|ws|..] == b;
    }
  }

  /** A tail that passes the checks of `MatchTail` is bracketed. */
  lemma TailBracketed(tail: string)
    requires |tail| > 0 && tail[0] == ','
    requires var b := tail[1..][SpacePrefix(tail[1..])..];
             |b| >= 3 && b[0] == '[' && b[|b| - 1] == ']' && ']' !in b[1..|b| - 1]
    ensures var n := SpacePrefix(tail[1..]);
            var b := tail[1..][n..];
            Bracketed(tail, tail[1..][..n], b[1..|b| - 1])
  {
    var n := SpacePrefix(tail[1..]);
    var b := tail[1..][n..];
    assert b == "[" + b[1..|b| - 1] + "]";
    assert tail == "," + tail[1..][..n] + b;
  }

  /** The regular expression `^([^,]+),\s*([^,\[]+)(?:,\s*\[([^\]]+)\])?$` on a trimmed
      line. The first group runs to the first comma; the second, after optional white
      space, to the next `,` or `[` (when `\s*` backtracks it may be all white space);
      an optional tail `,` white space `[groups]` must end the line, with no `]` inside
      and at least one character between the brackets. */
  function MatchEntry(line: string): (r: Option<LeaseEntry>)
    requires |line| > 0 && !IsSpace(line[0])
    ensures r.Some? <==> exists service, field, tail :: LineFields(line, service, field, tail)
    ensures ',' !in line ==> r.None?
    ensures r.Some? ==> WellFormedEntry(r.value) && r.value.service[0] == line[0]
  {
    LineFieldsExist(line);
    var c := IndexOf(line, ',');
    if c == 0 || c == |line| then None
    else
      var rest := line[c + 1..];
      var k := IndexOfAny(rest, {',', '['});
      if k == 0 then None
      else
        FieldFacts(line, c, rest, k);
        MatchTail(Trim(line[..c]), Trim(rest[..k]), rest[k..])
  }

  /** The pieces `MatchEntry` cuts are fields when what follows them is a groups tail. */
  lemma CutFields(line: string, c: nat, rest: string, k: nat)
    requires 0 < c < |line| && c == IndexOf(line, ',')
    requires rest == line[c + 1..] && 0 < k <= |rest| && k == IndexOfAny(rest, {',', '['})
    requires IsGroupsTail(rest[k..])
    ensures LineFields(line, line[..c], rest[..k], rest[k..])
  {
    CommaCut(line, c, rest, k);
  }

  /** Cutting a line at a comma and its rest anywhere loses nothing. */
  lemma CommaCut(line: string, c: nat, rest: string, k: nat)
    requires 0 <= c < |line| && line[c] == ','
    requires rest == line[c + 1..] && 0 <= k <= |rest|
    ensures line == line[..c] + "," + rest[..k] + rest[k..]
  {
    assert line == line[..c] + [line[c]] + line[c + 1..];
    assert rest == rest[..k] + rest[k..];
  }

  /** A line has fields exactly when its first comma is neither first nor last, a
      character other than `,` and `[` follows it, and what comes after that field
      is a groups tail. */
  lemma LineFieldsExist(line: string)
    ensures (exists service, field, tail :: LineFields(line, service, field, tail)) <==>
            var c := IndexOf(line, ',');
            && 0 < c < |line|
            && var rest := line[c + 1..];
               var k := IndexOfAny(rest, {',', '['});
               k > 0 && IsGroupsTail(rest[k..])
  {
    var c := IndexOf(line, ',');
    forall service, field, tail | LineFields(line, service, field, tail)
      ensures CutAt(line, service, field, tail)
    {
      LineFieldsAt(line, service, field, tail);
    }
    if 0 < c < |line| {
      var rest := line[c + 1..];
      var k := IndexOfAny(rest, {',', '['});
      if k > 0 && IsGroupsTail(rest[k..]) {
        CutFields(line, c, rest, k);
        assert LineFields(line, line[..c], rest[..k], rest[k..]);
      }
    }
  }

  /** A line that trims to fields is parsed field by field: the service and the
      resource provider trimmed, the groups from the tail. */
  lemma ParseInputLineFields(raw: string, service: string, field: string, tail: string)
    requires LineFields(Trim(raw), service, field, tail) && Trim(raw)[0] != '#'
    ensures ParseInputLine(raw) == MatchTail(Trim(service), Trim(field), tail)
  {
    MatchEntryOfFields(Trim(raw), service, field, tail);
  }

  /** A line made of fields is matched field by field. */
  lemma MatchEntryOfFields(line: string, service: string, field: string, tail: string)
    requires LineFields(line, service, field, tail) && !IsSpace(line[0])
    ensures MatchEntry(line) == MatchTail(Trim(service), Trim(field), tail)
  {
    LineFieldsAt(line, service, field, tail);
  }

  /** `MatchEntry`'s cuts of `line` give `service`, `field` and a groups tail `tail`. */
  ghost predicate CutAt(line: string, service: string, field: string, tail: string)
  {
    var c := IndexOf(line, ',');
    && 0 < c == |service| < |line| && line[..c] == service
    && var rest := line[c + 1..];
       var k := IndexOfAny(rest, {',', '['});
       && 0 < k == |field| && rest[..k] == field && rest[k..] == tail
       && IsGroupsTail(tail)
  }

  /** The fields of a line the grammar accepts are where `MatchEntry` cuts it: the
      service ends at the first comma, the field at the next `,` or `[`. */
  lemma LineFieldsAt(line: string, service: string, field: string, tail: string)
    requires LineFields(line, service, field, tail)
    ensures CutAt(line, service, field, tail)
  {
    if |tail| > 0 {
      GroupsTailStart(tail);
    }
    PlainFieldsCut(line, service, field, tail);
  }

  /** A non-empty groups tail starts with its comma. */
  lemma GroupsTailStart(tail: string)
    requires |tail| > 0 && IsGroupsTail(tail)
    ensures tail[0] == ','
  {
    var ws, inner :| Bracketed(tail, ws, inner);
  }

  lemma PlainFieldsCut(line: string, service: string, field: string, tail: string)
    requires line == service + "," + field + tail && ',' !in service
    requires ',' !in field && '[' !in field && (|tail| == 0 || tail[0] == ',')
    ensures var c := IndexOf(line, ',');
            && c == |service| < |line| && line[..c] == service
            && var rest := line[c + 1..];
               var k := IndexOfAny(rest, {',', '['});
               k == |field| && rest[..k] == field && rest[k..] == tail
  {
    var rest := field + tail;
    assert line == service + [','] + rest;
    IndexOfAfter(service, ',', rest);
    assert line[..|service|] == service;
    assert line[|service| + 1..] == rest;
    FieldStop(field, tail);
    assert rest[..|field|] == field;
    assert rest[|field|..] == tail;
  }

  /** A field without `,` or `[` ends where a tail starting with a comma begins. */
  lemma FieldStop(field: string, tail: string)
    requires ',' !in field && '[' !in field && (|tail| == 0 || tail[0] == ',')
    ensures IndexOfAny(field + tail, {',', '['}) == |field|
  {
    assert forall i :: 0 <= i < |field| ==> field[i] !in {',', '['};
    if |tail| == 0 {
      assert field + tail == field;
      IndexOfAnyNone(field, {',', '['});
    } else {
      IndexOfAnyAfter(field, tail, {',', '['});
    }
  }

  /** The rest of the line after the resource-provider field: nothing, or the
      bracketed groups. */
  function MatchTail(service: string, rp: string, tail: string): (r: Option<LeaseEntry>)
    ensures r.Some? <==> IsGroupsTail(tail)
    ensures r.Some? ==> r.value.service == service && r.value.resourceProvider == rp
    ensures r.Some? ==> forall k :: 0 <= k < |r.value.serviceGroups| ==>
                          |r.value.serviceGroups[k]| > 0 && IsTrimmed(r.value.serviceGroups[k])
                          && ',' !in r.value.serviceGroups[k] && ']' !in r.value.serviceGroups[k]
  {
    if |tail| == 0 then
      Some(LeaseEntry(service, rp, []))
    else
      BracketedTail(tail);
      if tail[0] != ',' then
        None
      else
        var bracketed := tail[1..][SpacePrefix(tail[1..])..];
        if |bracketed| < 3 || bracketed[0] != '[' || bracketed[|bracketed| - 1] != ']' then
          None
        else
          var groups := bracketed[1..|bracketed| - 1];
          if ']' in groups then None
          else
            TailBracketed(tail);
            Some(LeaseEntry(service, rp, SplitGroups(groups)))
  }

  /** Bracketed groups are split at their commas. */
  lemma MatchTailGroups(service: string, rp: string, tail: string, ws: string, inner: string)
    requires Bracketed(tail, ws, inner)
    ensures MatchTail(service, rp, tail) == Some(LeaseEntry(service, rp, SplitGroups(inner)))
  {
    BracketedTail(tail);
  }

  /** How a line of the shape `service,rest` with a resource-provider field `field`
      followed by `tail` is matched. */
  lemma MatchEntryFields(line: string, service: string, field: string, tail: string)
    requires |service| > 0 && !IsSpace(service[0]) && ',' !in service
    requires |field| > 0 && IndexOfAny(field + tail, {',', '['}) == |field|
    requires line == service + [','] + (field + tail)
    ensures MatchEntry(line) == MatchTail(Trim(service), Trim(field), tail)
  {
    var rest := field + tail;
    IndexOfAfter(service, ',', rest);
    assert line[..|service|] == service;
    assert line[|service| + 1..] == rest;
    assert rest[..|field|] == field;
    assert rest[|field|..] == tail;
  }

  /** A line `service, name` followed by `tail` (nothing, or starting with a comma)
      is matched field by field: the service and the name come back as they are. */
  lemma ParseFieldsLine(service: string, name: string, tail: string)
    requires |service| > 0 && IsTrimmed(service) && service[0] != '#' && ',' !in service
    requires |name| > 0 && IsTrimmed(name) && ',' !in name && '[' !in name
    requires |tail| == 0 || (tail[0] == ',' && !IsSpace(tail[|tail| - 1]))
    ensures ParseInputLine(service + ", " + name + tail) == MatchTail(service, name, tail)
  {
    LineMatch(service, name, tail);
    TrimmedFields(service, name, tail);
  }

  lemma TrimmedFields(service: string, name: string, tail: string)
    requires IsTrimmed(service) && IsTrimmed(name)
    ensures MatchTail(Trim(service), Trim(" " + name), tail) == MatchTail(service, name, tail)
  {
    TrimOfTrimmed(service);
    TrimAfterSpace(" ", name);
  }

  lemma LineMatch(service: string, name: string, tail: string)
    requires |service| > 0 && IsTrimmed(service) && service[0] != '#' && ',' !in service
    requires |name| > 0 && IsTrimmed(name) && ',' !in name && '[' !in name
    requires |tail| == 0 || (tail[0] == ',' && !IsSpace(tail[|tail| - 1]))
    ensures ParseInputLine(service + ", " + name + tail) == MatchTail(Trim(service), Trim(" " + name), tail)
  {
    var line := FieldsLine(service, name, tail);
    ParseTrimmedLine(line);
    FieldEnd(name, tail);
    MatchEntryFields(line, service, " " + name, tail);
  }

  /** The line `service, name` + `tail`, cut at its first comma. */
  lemma FieldsLine(service: string, name: string, tail: string) returns (line: string)
    requires |service| > 0 && IsTrimmed(service) && service[0] != '#'
    requires |name| > 0 && IsTrimmed(name)
    requires |tail| == 0 || !IsSpace(tail[|tail| - 1])
    ensures line == service + ", " + name + tail == service + [','] + (" " + name + tail)
    ensures |line| > 0 && IsTrimmed(line) && line[0] != '#'
  {
    line := service + ", " + name + tail;
    assert line == service + [','] + (" " + name + tail);
    assert line[0] == service[0];
    assert line[|line| - 1] == if |tail| == 0 then name[|name| - 1] else tail[|tail| - 1];
  }

  /** A trimmed line that is not a comment goes straight to the grammar. */
  lemma ParseTrimmedLine(line: string)
    requires |line| > 0 && IsTrimmed(line) && line[0] != '#'
    ensures ParseInputLine(line) == MatchEntry(line)
  {
    TrimOfTrimmed(line);
  }

  /** The resource-provider field ` name` ends where `tail` starts. */
  lemma FieldEnd(name: string, tail: string)
    requires ',' !in name && '[' !in name
    requires |tail| == 0 || tail[0] == ','
    ensures IndexOfAny(" " + name + tail, {',', '['}) == 1 + |name|
  {
    var a := " " + name;
    assert forall i :: 0 <= i < |a| ==> a[i] !in {',', '['} by {
      forall i | 0 <= i < |a| ensures a[i] !in {',', '['} {
        if i > 0 { assert a[i] == name[i - 1]; }
      }
    }
    if |tail| > 0 {
      IndexOfAnyAfter(a, tail, {',', '['});
    } else {
      assert a + tail == a;
      IndexOfAnyNone(a, {',', '['});
    }
  }

  lemma FieldFacts(line: string, c: nat, rest: string, k: nat)
    requires 0 < c < |line| && !IsSpace(line[0]) && c == IndexOf(line, ',')
    requires rest == line[c + 1..] && 0 < k <= |rest| && k == IndexOfAny(rest, {',', '['})
    ensures var service := Trim(line[..c]);
            |service| > 0 && IsTrimmed(service) && ',' !in service && service[0] == line[0]
    ensures var rp := Trim(rest[..k]);
            IsTrimmed(rp) && ',' !in rp && '[' !in rp
    ensures ',' !in line[..c] && ',' !in rest[..k] && '[' !in rest[..k]
  {
    assert ',' !in line[..c];
    TrimExcludes(line[..c], ',');
    TrimKeepsFirst(line[..c]);
    assert ',' !in rest[..k] && '[' !in rest[..k];
    TrimExcludes(rest[..k], ',');
    TrimExcludes(rest[..k], '[');
  }

  /** The loop of `main` over `content.split('\n')`, keeping the lines that parse. */
  function ParseInput(content: string): (r: seq<LeaseEntry>)
    ensures |r| <= |Split(content, '\n')|
    ensures forall k :: 0 <= k < |r| ==> WellFormedEntry(r[k])
  {
    ParseLines(Split(content, '\n'))
  }

  function ParseLines(lines: seq<string>): (r: seq<LeaseEntry>)
    ensures |r| <= |lines|
    ensures forall k :: 0 <= k < |r| ==> WellFormedEntry(r[k])
  {
    var parsed := Map(ParseInputLine, lines);
    var r := Present(parsed);
    assert forall k :: 0 <= k < |r| ==> WellFormedEntry(r[k]) by {
      forall k | 0 <= k < |r| ensures WellFormedEntry(r[k]) {
        PresentFrom(parsed, r[k]);
      }
    }
    r
  }

  /** `f` applied to every element, in order. */
  function Map<A, B>(f: A -> B, xs: seq<A>): (r: seq<B>)
    ensures |r| == |xs| && forall k :: 0 <= k < |xs| ==> r[k] == f(xs[k])
  {
    seq(|xs|, k requires 0 <= k < |xs| => f(xs[k]))
  }

  lemma MapAppend<A, B>(f: A -> B, a: seq<A>, b: seq<A>)
    ensures Map(f, a + b) == Map(f, a) + Map(f, b)
  {
  }

  /** The values of the `Some`s, in order. */
  function Present<T>(os: seq<Option<T>>): (r: seq<T>)
    ensures |r| <= |os|
  {
    if |os| == 0 then []
    else (if os[0].Some? then [os[0].value] else []) + Present(os[1..])
  }

  lemma {:induction false} PresentFrom<T>(os: seq<Option<T>>, x: T)
    requires x in Present(os)
    ensures Some(x) in os
  {
    if |os| > 0 && !(os[0].Some? && x == os[0].value) {
      PresentFrom(os[1..], x);
      assert forall o :: o in os[1..] ==> o in os;
    }
  }

  lemma {:induction false} PresentAppend<T>(a: seq<Option<T>>, b: seq<Option<T>>)
    ensures Present(a + b) == Present(a) + Present(b)
  {
    if |a| > 0 {
      assert (a + b)[0] == a[0];
      assert (a + b)[1..] == a[1..] + b;
      PresentAppend(a[1..], b);
    } else {
      assert a + b == b;
    }
  }

  lemma {:induction false} PresentAll<T>(os: seq<Option<T>>, xs: seq<T>)
    requires |os| == |xs| && forall k :: 0 <= k < |os| ==> os[k] == Some(xs[k])
    ensures Present(os) == xs
  {
    if |os| > 0 {
      PresentAll(os[1..], xs[1..]);
      assert [xs[0]] + xs[1..] == xs;
    }
  }

  lemma {:induction false} PresentNone<T>(os: seq<Option<T>>)
    requires forall k :: 0 <= k < |os| ==> os[k].None?
    ensures Present(os) == []
  {
    if |os| > 0 {
      PresentNone(os[1..]);
    }
  }

  /** The loop of `main` treats the lines one by one. */
  lemma ParseLinesAppend(a: seq<string>, b: seq<string>)
    ensures ParseLines(a + b) == ParseLines(a) + ParseLines(b)
  {
    MapAppend(ParseInputLine, a, b);
    PresentAppend(Map(ParseInputLine, a), Map(ParseInputLine, b));
  }

  /** Lines that each parse give their entries, in order. */
  lemma ParseLinesAll(lines: seq<string>, es: seq<LeaseEntry>)
    requires |lines| == |es|
    requires forall k :: 0 <= k < |lines| ==> ParseInputLine(lines[k]) == Some(es[k])
    ensures ParseLines(lines) == es
  {
    PresentAll(Map(ParseInputLine, lines), es);
  }

  /** Lines without a comma give no entry. */
  lemma ParseLinesNoComma(lines: seq<string>)
    requires forall k :: 0 <= k < |lines| ==> ',' !in lines[k]
    ensures ParseLines(lines) == []
  {
    PresentNone(Map(ParseInputLine, lines));
  }

  /** Splitting the `, `-join of plain groups gives the groups back. */
  lemma SplitGroupsOfJoin(gs: seq<string>)
    requires |gs| >= 1
    requires forall k :: 0 <= k < |gs| ==> |gs[k]| > 0 && IsTrimmed(gs[k]) && ',' !in gs[k]
    ensures SplitGroups(Join(gs, ", ")) == gs
  {
    SplitCommaSpaceJoin(gs);
    KeepLeadSpaced(gs);
  }

  /** Cutting the `, `-join at its commas leaves the groups after the first with the
      space in front. */
  lemma SplitCommaSpaceJoin(gs: seq<string>)
    requires |gs| >= 1
    requires forall k :: 0 <= k < |gs| ==> ',' !in gs[k]
    ensures Split(Join(gs, ", "), ',') == [gs[0]] + Spaced(gs[1..])
  {
    var parts := [gs[0]] + Spaced(gs[1..]);
    CommaSpaceJoin(gs);
    forall k | 0 <= k < |parts| ensures ',' !in parts[k] {
      if k > 0 { assert parts[k] == " " + gs[k]; }
    }
    SplitJoin(parts, ',');
  }

  lemma KeepLeadSpaced(gs: seq<string>)
    requires |gs| >= 1
    requires forall k :: 0 <= k < |gs| ==> |gs[k]| > 0 && IsTrimmed(gs[k])
    ensures KeepNonEmptyTrimmed([gs[0]] + Spaced(gs[1..])) == gs
  {
    var parts := [gs[0]] + Spaced(gs[1..]);
    TrimOfTrimmed(gs[0]);
    assert parts[1..] == Spaced(gs[1..]);
    KeepSpaced(gs[1..]);
    assert [gs[0]] + gs[1..] == gs;
  }

  lemma {:induction false} KeepSpaced(gs: seq<string>)
    requires forall k :: 0 <= k < |gs| ==> |gs[k]| > 0 && IsTrimmed(gs[k])
    ensures KeepNonEmptyTrimmed(Spaced(gs)) == gs
  {
    if |gs| > 0 {
      TrimAfterSpace(" ", gs[0]);
      assert Spaced(gs)[1..] == Spaced(gs[1..]);
      KeepSpaced(gs[1..]);
      assert [gs[0]] + gs[1..] == gs;
    }
  }

  // ---------------------------------------------------------------------------
  // lease.yaml

  /** `generateLeaseYaml`: the text
        lease:
          resource-provider: <resourceProvider>
          startdate: <startdate>
          duration-days: <duration>
          reviewer: <reviewer>
      with a final line break, written as its lines joined by line breaks. */
  function GenerateLeaseYaml(resourceProvider: string, startdate: string, duration: string, reviewer: string): string
  {
    Join(YamlLines(resourceProvider, startdate, duration, reviewer), "\n")
  }

  const ResourceProviderKey: string := "  resource-provider: "
  const StartdateKey: string := "  startdate: "
  const DurationKey: string := "  duration-days: "
  const ReviewerKey: string := "  reviewer: "

  /** Reads the four fields back from a `lease.yaml` text of the generated shape. */
  function ReadLeaseYaml(content: string): Option<Lease>
  {
    var lines := Split(content, '\n');
    if && |lines| == 6 && lines[0] == "lease:" && lines[5] == ""
       && StartsWith(lines[1], ResourceProviderKey) && StartsWith(lines[2], StartdateKey)
       && StartsWith(lines[3], DurationKey) && StartsWith(lines[4], ReviewerKey)
    then
      Some(Lease(lines[1][|ResourceProviderKey|..], lines[2][|StartdateKey|..],
                 lines[3][|DurationKey|..], lines[4][|ReviewerKey|..]))
    else
      None
  }

  /** The generated file holds exactly the four values it was given. */
  lemma LeaseYamlRoundTrip(resourceProvider: string, startdate: string, duration: string, reviewer: string)
    requires '\n' !in resourceProvider && '\n' !in startdate && '\n' !in duration && '\n' !in reviewer
    ensures ReadLeaseYaml(GenerateLeaseYaml(resourceProvider, startdate, duration, reviewer))
            == Some(Lease(resourceProvider, startdate, duration, reviewer))
  {
    var lines := YamlLines(resourceProvider, startdate, duration, reviewer);
    KeyedLine(ResourceProviderKey, resourceProvider);
    KeyedLine(StartdateKey, startdate);
    KeyedLine(DurationKey, duration);
    KeyedLine(ReviewerKey, reviewer);
    SplitJoin(lines, '\n');
  }

  /** The lines of a generated `lease.yaml`, the last one empty. */
  function YamlLines(resourceProvider: string, startdate: string, duration: string, reviewer: string): seq<string>
  {
    ["lease:", ResourceProviderKey + resourceProvider, StartdateKey + startdate,
     DurationKey + duration, ReviewerKey + reviewer, ""]
  }

  lemma KeyedLine(key: string, value: string)
    requires '\n' !in key && '\n' !in value
    ensures '\n' !in key + value
    ensures StartsWith(key + value, key) && (key + value)[|key|..] == value
  {
    assert (key + value)[..|key|] == key;
  }

  // ---------------------------------------------------------------------------
  // Lease paths

  /** The path segments below the repository root; a missing or empty group (both
      falsy in JavaScript) gives the path without a group directory. */
  function LeaseSegments(service: string, resourceProvider: string, serviceGroup: Option<string>): (r: seq<string>)
    ensures |r| == if EffectiveGroup(serviceGroup).Some? then 6 else 5
    ensures r[0] == ".github" && r[1] == "arm-leases" && r[2] == service && r[3] == resourceProvider
    ensures EffectiveGroup(serviceGroup).Some? ==> r[4] == serviceGroup.value
    ensures r[|r| - 1] == "lease.yaml"
  {
    [".github", "arm-leases", service, resourceProvider]
    + (if serviceGroup.Some? && serviceGroup.value != "" then [serviceGroup.value] else [])
    + ["lease.yaml"]
  }

  /** `getLeasePath`, joining with `/`. */
  function LeasePath(repoRoot: string, service: string, resourceProvider: string, serviceGroup: Option<string>): string
  {
    repoRoot + "/" + Join(LeaseSegments(service, resourceProvider, serviceGroup), "/")
  }

  /** The group a path is for, with the empty group counted as none. */
  function EffectiveGroup(serviceGroup: Option<string>): Option<string>
  {
    if serviceGroup.Some? && serviceGroup.value != "" then serviceGroup else None
  }

  /** The path layout `<root>/.github/arm-leases/<service>/<rp>[/<group>]/lease.yaml`:
      after the root and a `/`, the path splits at its slashes into exactly the
      segments, as long as the names hold no `/`. */
  lemma LeasePathSegments(repoRoot: string, service: string, resourceProvider: string, serviceGroup: Option<string>)
    requires '/' !in service && '/' !in resourceProvider && (serviceGroup.Some? ==> '/' !in serviceGroup.value)
    ensures var path := LeasePath(repoRoot, service, resourceProvider, serviceGroup);
            && |repoRoot| + 1 <= |path| && path[..|repoRoot| + 1] == repoRoot + "/"
            && Split(path[|repoRoot| + 1..], '/') == LeaseSegments(service, resourceProvider, serviceGroup)
  {
    var path := LeasePath(repoRoot, service, resourceProvider, serviceGroup);
    var seg := LeaseSegments(service, resourceProvider, serviceGroup);
    var n := |repoRoot| + 1;
    assert path[..n] == repoRoot + "/" && path[n..] == Join(seg, "/");
    assert '/' !in ".github" && '/' !in "arm-leases" && '/' !in "lease.yaml";
    assert forall k :: 0 <= k < |seg| ==> '/' !in seg[k];
    SplitJoin(seg, '/');
  }

  /** Lease paths below one root are distinct for distinct (service, RP, group), as long
      as the names hold no `/`: the segments can be read back from the path. */
  lemma LeasePathInjective(repoRoot: string,
                           s1: string, p1: string, g1: Option<string>,
                           s2: string, p2: string, g2: Option<string>)
    requires '/' !in s1 && '/' !in p1 && (g1.Some? ==> '/' !in g1.value)
    requires '/' !in s2 && '/' !in p2 && (g2.Some? ==> '/' !in g2.value)
    requires LeasePath(repoRoot, s1, p1, g1) == LeasePath(repoRoot, s2, p2, g2)
    ensures s1 == s2 && p1 == p2 && EffectiveGroup(g1) == EffectiveGroup(g2)
  {
    LeasePathSegments(repoRoot, s1, p1, g1);
    LeasePathSegments(repoRoot, s2, p2, g2);
    LeaseSegmentsInjective(s1, p1, g1, s2, p2, g2);
  }

  lemma LeaseSegmentsInjective(s1: string, p1: string, g1: Option<string>,
                               s2: string, p2: string, g2: Option<string>)
    requires LeaseSegments(s1, p1, g1) == LeaseSegments(s2, p2, g2)
    ensures s1 == s2 && p1 == p2 && EffectiveGroup(g1) == EffectiveGroup(g2)
  {
  }

  // ---------------------------------------------------------------------------
  // One entry

  /** `processEntry` as a plan: `Failure` (logged by the script, no file written) when
      the service name or resource provider is invalid; otherwise one file without a
      group directory when there are no groups, or one file per group in order, all
      with the same `lease.yaml` text. */
  function ProcessEntry(entry: LeaseEntry, startdate: string, duration: string, reviewer: string, repoRoot: string)
    : (r: Result<seq<PlannedFile>, LeaseError>)
    ensures r.Failure? <==> ValidateServiceName(entry.service).Failure?
                            || ValidateResourceProvider(entry.resourceProvider).Failure?
    ensures r.Failure? ==> r.error == if ValidateServiceName(entry.service).Failure?
                                      then ServiceNameNotLowercase(entry.service)
                                      else ResourceProviderNotCapitalised(entry.resourceProvider)
    ensures r.Success? && |entry.serviceGroups| == 0 ==>
              |r.value| == 1
              && r.value[0].path == LeasePath(repoRoot, entry.service, entry.resourceProvider, None)
    ensures r.Success? && |entry.serviceGroups| > 0 ==>
              && |r.value| == |entry.serviceGroups|
              && forall i :: 0 <= i < |r.value| ==>
                   r.value[i].path == LeasePath(repoRoot, entry.service, entry.resourceProvider, Some(entry.serviceGroups[i]))
    ensures r.Success? ==> forall i :: 0 <= i < |r.value| ==>
              r.value[i].content == GenerateLeaseYaml(entry.resourceProvider, startdate, duration, reviewer)
  {
    if ValidateServiceName(entry.service).Failure? then
      Failure(ServiceNameNotLowercase(entry.service))
    else if ValidateResourceProvider(entry.resourceProvider).Failure? then
      Failure(ResourceProviderNotCapitalised(entry.resourceProvider))
    else
      var content := GenerateLeaseYaml(entry.resourceProvider, startdate, duration, reviewer);
      var groups := entry.serviceGroups;
      if |groups| == 0 then
        Success([PlannedFile(LeasePath(repoRoot, entry.service, entry.resourceProvider, None), content)])
      else
        Success(seq(|groups|, i requires 0 <= i < |groups| =>
          PlannedFile(LeasePath(repoRoot, entry.service, entry.resourceProvider, Some(groups[i])), content)))
  }

  /** Within one entry no two planned files share a path, so the script's
      "already exists, skipping" check never drops a file of the same entry, provided
      the groups are distinct and non-empty and no name holds a `/`. */
  lemma PlannedPathsDistinct(entry: LeaseEntry, startdate: string, duration: string, reviewer: string, repoRoot: string)
    requires ProcessEntry(entry, startdate, duration, reviewer, repoRoot).Success?
    requires '/' !in entry.resourceProvider
    requires forall k :: 0 <= k < |entry.serviceGroups| ==> entry.serviceGroups[k] != "" && '/' !in entry.serviceGroups[k]
    requires forall i, j :: 0 <= i < j < |entry.serviceGroups| ==> entry.serviceGroups[i] != entry.serviceGroups[j]
    ensures var files := ProcessEntry(entry, startdate, duration, reviewer, repoRoot).value;
            forall i, j :: 0 <= i < j < |files| ==> files[i].path != files[j].path
  {
    var files := ProcessEntry(entry, startdate, duration, reviewer, repoRoot).value;
    ValidServiceNameIsPlain(entry.service);
    forall i, j | 0 <= i < j < |files|
      ensures files[i].path != files[j].path
    {
      var g := entry.serviceGroups;
      if files[i].path == files[j].path {
        LeasePathInjective(repoRoot, entry.service, entry.resourceProvider, Some(g[i]),
                           entry.service, entry.resourceProvider, Some(g[j]));
      }
    }
  }

  // ---------------------------------------------------------------------------
  // The cases the script's own tests exercise

  lemma SampleDigits()
    ensures DigitsValue("180") == 180 && DigitsValue("30") == 30 && DigitsValue("200") == 200
  {
    assert "180"[..2] == "18" && "18"[..1] == "1" && "1"[..0] == "";
    assert "30"[..1] == "3" && "3"[..0] == "";
    assert "200"[..2] == "20" && "20"[..1] == "2" && "2"[..0] == "";
  }

  lemma DurationExamples()
    ensures ValidateDuration("P180D") == Success("P180D")
    ensures ValidateDuration("p30d") == Success("P30D")
    ensures ValidateDuration("180 days") == Failure(InvalidDurationFormat("180 days"))
    ensures ValidateDuration("P200D") == Failure(DurationOutOfRange(200))
  {
    SampleDigits();
    var d1 := "P180D";
    assert d1[1..|d1| - 1] == "180";
    assert UpperAscii(d1) == d1;
    var d2 := "p30d";
    assert d2[1..|d2| - 1] == "30";
    assert UpperAscii(d2) == "P30D" by {
      assert UpperAscii(d2)[0] == 'P' && UpperAscii(d2)[3] == 'D';
      assert UpperAscii(d2)[1] == '3' && UpperAscii(d2)[2] == '0';
    }
    var d3 := "P200D";
    assert d3[1..|d3| - 1] == "200";
  }

  lemma NameExamples()
    ensures ValidateServiceName("testservice123").Success?
    ensures ValidateServiceName("test-service").Failure?
  {
    assert "test-service"[4] == '-';
  }

  lemma LowercaseProviderExample()
    ensures ValidateResourceProvider("microsoft.Test").Failure?
  {
    JoinCons("microsoft", ["Test"], ".");
    SplitJoin(["microsoft", "Test"], '.');
  }

  lemma EmptyPartExample()
    ensures ValidateResourceProvider("A..B").Failure?
  {
    assert Split("A..B", '.')[1] == "";
  }

  lemma PastDateExample()
    ensures ValidateStartDate("2020-01-01", "2026-10-10") == Failure(StartDateInPast("2020-01-01"))
  {
    var a := "2020-01-01";
    var b := "2026-10-10";
    assert a == "202" + "0-01-01" && b == "202" + "6-10-10";
    LexConcat("202", "0-01-01", "202", "6-10-10");
    assert Order.LessEq("0-01-01", "6-10-10");
    assert a[3] != b[3];
    SampleDatePattern();
  }

  lemma SampleDatePattern()
    ensures IsDatePattern("2020-01-01")
  {
    var a := "2020-01-01";
    assert a[..4] == "2020" && a[5..7] == "01" && a[8..] == "01";
  }

  lemma DateFormatExample()
    ensures ValidateStartDate("12/31/2026", "2026-10-10") == Failure(InvalidDateFormat("12/31/2026"))
  {
    assert "12/31/2026"[4] == '1';
  }
  lemma ZeroDurationExample()
    ensures ValidateDuration("P0D") == Failure(DurationOutOfRange(0))
  {
    var d := "P0D";
    assert d[1..|d| - 1] == "0" && "0"[..0] == "";
  }

  lemma CapitalServiceExample()
    ensures ValidateServiceName("TestService") == Failure(ServiceNameNotLowercase("TestService"))
  {
    assert "TestService"[0] == 'T';
  }

  lemma SkippedLineExamples()
    ensures ParseInputLine("") == None
    ensures ParseInputLine("# This is a comment") == None
  {
    var c := "# This is a comment";
    assert |""| == 0;
    assert c[0] == '#' && !IsSpace(c[0]);
    TrimKeepsFirst(c);
  }
}

=== FILE: Order.dfy ===
/** The order the scripts sort names by, and a stable sort by a string key.

    Python compares strings by code point, and JavaScript's default `Array.prototype.sort`
    by UTF-16 code unit; both are modelled as the lexicographic order on `char`. */
module Order {

  /** `a` comes no later than `b` in lexicographic code-point order. */
  predicate LessEq(a: string, b: string)
  {
    |a| == 0 || (|b| > 0 && (a[0] < b[0] || (a[0] == b[0] && LessEq(a[1..], b[1..]))))
  }

  /** `a` comes strictly before `b`. */
  predicate Less(a: string, b: string)
  {
    LessEq(a, b) && a != b
  }

  lemma {:induction false} LessEqTotal(a: string, b: string)
    ensures LessEq(a, b) || LessEq(b, a)
  {
    if |a| > 0 && |b| > 0 && a[0] == b[0] {
      LessEqTotal(a[1..], b[1..]);
    }
  }

  lemma {:induction false} LessEqAntisymmetric(a: string, b: string)
    requires LessEq(a, b) && LessEq(b, a)
    ensures a == b
  {
    if |a| > 0 && |b| > 0 {
      LessEqAntisymmetric(a[1..], b[1..]);
      assert a == [a[0]] + a[1..];
      assert b == [b[0]] + b[1..];
    }
  }

  lemma {:induction false} LessEqTransitive(a: string, b: string, c: string)
    requires LessEq(a, b) && LessEq(b, c)
    ensures LessEq(a, c)
  {
    if |a| > 0 && |b| > 0 && |c| > 0 && a[0] == b[0] && b[0] == c[0] {
      LessEqTransitive(a[1..], b[1..], c[1..]);
    }
  }

  /** Adjacent elements are in order of their keys. */
  predicate SortedBy<T>(s: seq<T>, key: T -> string)
  {
    forall i :: 0 < i < |s| ==> LessEq(key(s[i - 1]), key(s[i]))
  }

  /** Any two elements, not only adjacent ones, are in order. */
  lemma {:induction false} SortedByPairwise<T>(s: seq<T>, key: T -> string, i: int, j: int)
    requires SortedBy(s, key)
    requires 0 <= i <= j < |s|
    ensures LessEq(key(s[i]), key(s[j]))
    decreases j - i
  {
    if i == j {
      LessEqReflexive(key(s[i]));
    } else {
      SortedByPairwise(s, key, i, j - 1);
      LessEqTransitive(key(s[i]), key(s[j - 1]), key(s[j]));
    }
  }

  lemma {:induction false} LessEqReflexive(a: string)
    ensures LessEq(a, a)
  {
    if |a| > 0 {
      LessEqReflexive(a[1..]);
    }
  }

  /** Places `x` in front of the first element whose key is not below `x`'s, so that
      elements with equal keys keep their order. */
  function Insert<T>(x: T, s: seq<T>, key: T -> string): (r: seq<T>)
    requires SortedBy(s, key)
    ensures SortedBy(r, key)
    ensures multiset(r) == multiset(s) + multiset{x}
    ensures r[0] == x || (|s| > 0 && r[0] == s[0])
  {
    if |s| == 0 then
      [x]
    else if LessEq(key(x), key(s[0])) then
      [x] + s
    else
      var tail := Insert(x, s[1..], key);
      LessEqTotal(key(x), key(s[0]));
      assert s == [s[0]] + s[1..];
      [s[0]] + tail
  }

  /** Stable insertion sort by `key`: a sorted permutation of `s`. */
  function SortBy<T>(s: seq<T>, key: T -> string): (r: seq<T>)
    ensures SortedBy(r, key)
    ensures multiset(r) == multiset(s)
    ensures |r| == |s|
  {
    if |s| == 0 then
      []
    else
      assert s == [s[0]] + s[1..];
      Insert(s[0], SortBy(s[1..], key), key)
  }

  function Self(s: string): string
  {
    s
  }

  /** JavaScript's `names.sort()` and Python's `sorted(names)`. */
  function SortStrings(names: seq<string>): (r: seq<string>)
    ensures SortedBy(r, Self)
    ensures multiset(r) == multiset(names)
  {
    SortBy(names, Self)
  }

  /** A sorted permutation of strings is unique: sorting is determined by its contract,
      whatever algorithm computes it. */
  lemma {:induction false} SortedPermutationUnique(a: seq<string>, b: seq<string>)
    requires SortedBy(a, Self) && SortedBy(b, Self)
    requires multiset(a) == multiset(b)
    ensures a == b
    decreases |a|
  {
    assert |b| == |multiset(b)| == |multiset(a)| == |a|;
    if |a| > 0 {
      SameLeast(a, b);
      TailMultiset(a);
      TailMultiset(b);
      SortedTail(a, Self);
      SortedTail(b, Self);
      SortedPermutationUnique(a[1..], b[1..]);
      assert a == [a[0]] + a[1..];
      assert b == [b[0]] + b[1..];
    }
  }

  /** Two sorted permutations of each other start with the same, least, element. */
  lemma SameLeast(a: seq<string>, b: seq<string>)
    requires SortedBy(a, Self) && SortedBy(b, Self)
    requires multiset(a) == multiset(b) && |a| > 0 && |b| > 0
    ensures a[0] == b[0]
  {
    assert b[0] in multiset(a);
    var i :| 0 <= i < |a| && a[i] == b[0];
    assert a[0] in multiset(b);
    var j :| 0 <= j < |b| && b[j] == a[0];
    SortedByPairwise(a, Self, 0, i);
    SortedByPairwise(b, Self, 0, j);
    LessEqAntisymmetric(a[0], b[0]);
  }

  lemma TailMultiset(s: seq<string>)
    requires |s| > 0
    ensures multiset(s[1..]) == multiset(s) - multiset{s[0]}
  {
    assert s == [s[0]] + s[1..];
  }

  /** Dropping the first element keeps a sequence sorted. */
  lemma SortedTail<T>(s: seq<T>, key: T -> string)
    requires SortedBy(s, key) && |s| > 0
    ensures SortedBy(s[1..], key)
  {
    forall k | 0 < k < |s[1..]| ensures LessEq(key(s[1..][k - 1]), key(s[1..][k])) {
      assert s[1..][k - 1] == s[k] && s[1..][k] == s[k + 1];
    }
  }
}

=== FILE: Pipeline.dfy ===
/** The two tools together. The usage text of `generate-lease-files.js` documents the
    list output of `fetch-resource-providers.js` as its input format: what the scan
    prints, saved to a file, is read back by `parseInputLine` into the same service,
    resource provider and groups. The Python list formats are not that format. */
module Pipeline {
  import opened Wrappers
  import opened Text
  import opened SpecTree
  import FetchJs
  import FetchPy
  import LeaseFiles

  /** A group name the input grammar carries unchanged. */
  predicate PlainGroup(g: string)
  {
    |g| > 0 && IsTrimmed(g) && ',' !in g && ']' !in g && '\n' !in g
  }

  /** A record whose list line the input grammar reads back unchanged: a service that
      is not blank, has no surrounding space, no comma and does not start a comment; a
      name with no surrounding space, no comma and no `[`; plain groups, at least one
      in with-groups mode; and no line breaks. */
  predicate PlainRecord(rp: ResourceProvider, withGroups: bool)
  {
    && |rp.service| > 0 && IsTrimmed(rp.service) && rp.service[0] != '#'
    && ',' !in rp.service && '\n' !in rp.service
    && |rp.name| > 0 && IsTrimmed(rp.name) && ',' !in rp.name && '[' !in rp.name && '\n' !in rp.name
    && (withGroups ==> && rp.serviceGroups.Some? && |rp.serviceGroups.value| > 0
                       && forall g :: 0 <= g < |rp.serviceGroups.value| ==> PlainGroup(rp.serviceGroups.value[g]))
  }

  /** The lease entry a record stands for. */
  function EntryOf(rp: ResourceProvider, withGroups: bool): LeaseFiles.LeaseEntry
  {
    LeaseFiles.LeaseEntry(rp.service, rp.name, if withGroups then GroupsOf(rp) else [])
  }

  /** Every list line of the JavaScript scan parses back to its record. */
  lemma LineRoundTrip(rp: ResourceProvider, withGroups: bool)
    requires PlainRecord(rp, withGroups)
    ensures LeaseFiles.ParseInputLine(FetchJs.ListLine(rp, withGroups)) == Some(EntryOf(rp, withGroups))
  {
    LineFields(rp, withGroups);
    if withGroups {
      GroupsTail(GroupsOf(rp));
    }
  }

  /** What a list line holds after its resource-provider field. */
  function TailOf(rp: ResourceProvider, withGroups: bool): string
  {
    if withGroups then ", [" + Join(GroupsOf(rp), ", ") + "]" else ""
  }

  /** The service and resource-provider fields of a list line are the record's. */
  lemma LineFields(rp: ResourceProvider, withGroups: bool)
    requires PlainRecord(rp, withGroups)
    ensures LeaseFiles.ParseInputLine(FetchJs.ListLine(rp, withGroups))
            == LeaseFiles.MatchTail(rp.service, rp.name, TailOf(rp, withGroups))
  {
    var tail := TailOf(rp, withGroups);
    assert FetchJs.ListLine(rp, withGroups) == rp.service + ", " + rp.name + tail;
    assert |tail| > 0 ==> tail[|tail| - 1] == ']';
    LeaseFiles.ParseFieldsLine(rp.service, rp.name, tail);
  }

  /** The optional part `, [g1, g2]` parses back to the groups. */
  lemma GroupsTail(gs: seq<string>)
    requires |gs| > 0 && forall g :: 0 <= g < |gs| ==> PlainGroup(gs[g])
    ensures forall service, rp :: LeaseFiles.MatchTail(service, rp, ", [" + Join(gs, ", ") + "]")
                                  == Some(LeaseFiles.LeaseEntry(service, rp, gs))
  {
    var g := Join(gs, ", ");
    var tail := ", [" + g + "]";
    var b := "[" + g + "]";
    assert tail[1..] == " " + b;
    assert SpacePrefix(tail[1..]) == 1 by {
      assert (" " + b)[1..] == b;
    }
    assert tail[1..][1..] == b;
    JoinLength(gs);
    assert b[1..|b| - 1] == g;
    JoinExcludes(gs, ", ", ']');
    LeaseFiles.SplitGroupsOfJoin(gs);
  }

  lemma JoinLength(gs: seq<string>)
    requires |gs| > 0
    ensures |Join(gs, ", ")| >= |gs[0]|
  {
    if |gs| > 1 {
      JoinCons(gs[0], gs[1..], ", ");
      assert [gs[0]] + gs[1..] == gs;
    }
  }

  /** What the JavaScript scan prints in list format (its text, then the total), saved
      to a file, is read by the lease generator as exactly the records' entries, in
      order: the summary lines and the "none found" message hold no comma and are
      skipped. */
  lemma ListReportRoundTrip(rps: seq<ResourceProvider>, withGroups: bool)
    requires forall k :: 0 <= k < |rps| ==> PlainRecord(rps[k], withGroups)
    requires withGroups ==> forall k :: 0 <= k < |rps| ==> rps[k].serviceGroups.Some?
    ensures var text := FetchJs.FormatOutput(rps, List, withGroups).text;
            LeaseFiles.ParseInput(Report(text, |rps|, withGroups)) == Entries(rps, withGroups)
  {
    var lines := OutputLines(rps, withGroups);
    var extra := ["", TotalLine(|rps|, withGroups), ""];
    ReportSplit(rps, withGroups);
    LeaseFiles.ParseLinesAppend(lines, extra);
    SummaryParse(|rps|, withGroups);
    OutputLinesParse(rps, withGroups);
  }

  /** The lines after the output give no entry. */
  lemma SummaryParse(count: nat, withGroups: bool)
    ensures LeaseFiles.ParseLines(["", TotalLine(count, withGroups), ""]) == []
  {
    var extra := ["", TotalLine(count, withGroups), ""];
    SummaryFacts(count, withGroups);
    assert forall k :: 0 <= k < |extra| ==> ',' !in extra[k];
    LeaseFiles.ParseLinesNoComma(extra);
  }

  /** The entries of the records, in order. */
  function Entries(rps: seq<ResourceProvider>, withGroups: bool): (r: seq<LeaseFiles.LeaseEntry>)
    ensures |r| == |rps| && forall k :: 0 <= k < |rps| ==> r[k] == EntryOf(rps[k], withGroups)
  {
    seq(|rps|, k requires 0 <= k < |rps| => EntryOf(rps[k], withGroups))
  }

  /** The lines of the list output's text. */
  function OutputLines(rps: seq<ResourceProvider>, withGroups: bool): (r: seq<string>)
    requires withGroups ==> forall k :: 0 <= k < |rps| ==> rps[k].serviceGroups.Some?
    ensures |r| > 0 && Join(r, "\n") == FetchJs.FormatOutput(rps, List, withGroups).text
  {
    if |rps| == 0 then [NoneFoundMessage(withGroups)] else FetchJs.ListLines(rps, withGroups)
  }

  /** The report splits into the output lines, an empty line, the total and the empty
      remainder after the last line break. */
  lemma ReportSplit(rps: seq<ResourceProvider>, withGroups: bool)
    requires forall k :: 0 <= k < |rps| ==> PlainRecord(rps[k], withGroups)
    requires withGroups ==> forall k :: 0 <= k < |rps| ==> rps[k].serviceGroups.Some?
    ensures var text := FetchJs.FormatOutput(rps, List, withGroups).text;
            Split(Report(text, |rps|, withGroups), '\n')
            == OutputLines(rps, withGroups) + ["", TotalLine(|rps|, withGroups), ""]
  {
    var lines := OutputLines(rps, withGroups);
    var total := TotalLine(|rps|, withGroups);
    var all := lines + ["", total, ""];
    ReportLines(lines, total, Join(lines, "\n"));
    SummaryFacts(|rps|, withGroups);
    ListLinesSingle(rps, withGroups, lines);
    var tail := ["", total, ""];
    assert forall k :: 0 <= k < |tail| ==> '\n' !in tail[k];
    ExcludedFromConcat(lines, tail, '\n');
    SplitJoin(all, '\n');
  }

  /** Each output line gives its record's entry; the "none found" message gives none. */
  lemma OutputLinesParse(rps: seq<ResourceProvider>, withGroups: bool)
    requires forall k :: 0 <= k < |rps| ==> PlainRecord(rps[k], withGroups)
    requires withGroups ==> forall k :: 0 <= k < |rps| ==> rps[k].serviceGroups.Some?
    ensures LeaseFiles.ParseLines(OutputLines(rps, withGroups)) == Entries(rps, withGroups)
  {
    var lines := OutputLines(rps, withGroups);
    var entries := Entries(rps, withGroups);
    if |rps| == 0 {
      MessageFacts(withGroups);
      LeaseFiles.ParseLinesNoComma(lines);
    } else {
      forall k | 0 <= k < |lines|
        ensures LeaseFiles.ParseInputLine(lines[k]) == Some(entries[k])
      {
        LineRoundTrip(rps[k], withGroups);
      }
      LeaseFiles.ParseLinesAll(lines, entries);
    }
  }

  /** The report is the join of the output lines, an empty line, the total and the
      empty remainder after the last line break. */
  lemma ReportLines(lines: seq<string>, total: string, text: string)
    requires |lines| > 0 && text == Join(lines, "\n")
    ensures text + "\n" + "\n" + total + "\n" == Join(lines + ["", total, ""], "\n")
  {
    JoinAppend(lines, ["", total, ""], "\n");
    JoinCons("", [total, ""], "\n");
    JoinCons(total, [""], "\n");
  }

  lemma ListLinesSingle(rps: seq<ResourceProvider>, withGroups: bool, lines: seq<string>)
    requires forall k :: 0 <= k < |rps| ==> PlainRecord(rps[k], withGroups)
    requires withGroups ==> forall k :: 0 <= k < |rps| ==> rps[k].serviceGroups.Some?
    requires lines == if |rps| == 0 then [NoneFoundMessage(withGroups)] else FetchJs.ListLines(rps, withGroups)
    ensures forall k :: 0 <= k < |lines| ==> '\n' !in lines[k] && (|rps| == 0 ==> ',' !in lines[k])
  {
    if |rps| == 0 {
      MessageFacts(withGroups);
    } else {
      forall k | 0 <= k < |lines| ensures '\n' !in lines[k] {
        var rp := rps[k];
        if withGroups {
          JoinExcludes(GroupsOf(rp), ", ", '\n');
        }
        assert lines[k] == FetchJs.ListLine(rp, withGroups);
      }
    }
  }

  /** A text with neither a line break nor a comma: one input line, and no entry. */
  predicate Uncut(s: string)
  {
    '\n' !in s && ',' !in s
  }

  /** The "none found" message is one line without a comma. */
  lemma MessageFacts(withGroups: bool)
    ensures Uncut(NoneFoundMessage(withGroups))
  {
    UncutWith();
    UncutWithout();
    UncutNoneHead();
    UncutNoneTail();
  }

  /** The summary line is one line without a comma. */
  lemma SummaryFacts(count: nat, withGroups: bool)
    ensures Uncut(TotalLine(count, withGroups))
  {
    var digits := NatToString(count);
    assert forall i :: 0 <= i < |digits| ==> digits[i] != ',' && digits[i] != '\n';
    UncutWith();
    UncutWithout();
    UncutTotalHead();
    UncutTotalMiddle();
    UncutTotalTail();
  }

  // The literal pieces of the two messages, each checked on its own: asserted
  // together inside the lemmas above they cost the solver several times as much.

  lemma UncutWith() ensures Uncut("with") {}
  lemma UncutWithout() ensures Uncut("without") {}
  lemma UncutNoneHead() ensures Uncut("No resource providers ") {}
  lemma UncutNoneTail() ensures Uncut(" service groups found.") {}
  lemma UncutTotalHead() ensures Uncut("Total: ") {}
  lemma UncutTotalMiddle() ensures Uncut(" resource provider(s) ") {}
  lemma UncutTotalTail() ensures Uncut(" service groups") {}

  /** A list line of the Python script never becomes a lease: it starts with the
      resource provider's name, so whatever `parseInputLine` reads from it has a
      service starting with the capital `M` of `Microsoft.`, which `validateServiceName`
      rejects. */
  lemma PythonListIsNotLeaseInput(rps: seq<ResourceProvider>, withGroups: bool,
                                  startdate: string, duration: string, reviewer: string, repoRoot: string)
    requires |rps| > 0 && SingleLineFields(rps)
    requires withGroups ==> forall k :: 0 <= k < |rps| ==> rps[k].serviceGroups.Some?
    requires forall k :: 0 <= k < |rps| ==> StartsWith(rps[k].name, ProviderPrefix)
    ensures var lines := Split(FetchPy.FormatOutput(rps, List, withGroups).text, '\n');
            forall k :: 0 <= k < |lines| && LeaseFiles.ParseInputLine(lines[k]).Some? ==>
              var e := LeaseFiles.ParseInputLine(lines[k]).value;
              LeaseFiles.ProcessEntry(e, startdate, duration, reviewer, repoRoot)
              == Failure(LeaseFiles.ServiceNameNotLowercase(e.service))
  {
    var lines := Split(FetchPy.FormatOutput(rps, List, withGroups).text, '\n');
    FetchPy.ListOutputLines(rps, withGroups);
    forall k | 0 <= k < |lines| && LeaseFiles.ParseInputLine(lines[k]).Some?
      ensures var e := LeaseFiles.ParseInputLine(lines[k]).value;
              LeaseFiles.ProcessEntry(e, startdate, duration, reviewer, repoRoot)
              == Failure(LeaseFiles.ServiceNameNotLowercase(e.service))
    {
      ProviderLineStart(lines[k], rps[k].name);
      CapitalLineRejected(lines[k], startdate, duration, reviewer, repoRoot);
    }
  }

  /** A line starting with a resource provider's name starts with `M`. */
  lemma ProviderLineStart(line: string, name: string)
    requires StartsWith(line, name) && StartsWith(name, ProviderPrefix)
    ensures |line| > 0 && line[0] == 'M'
  {
    assert name[0] == name[..|ProviderPrefix|][0] == ProviderPrefix[0];
    assert line[0] == line[..|name|][0];
  }

  /** Whatever a line starting with a capital letter parses to is rejected. */
  lemma CapitalLineRejected(line: string, startdate: string, duration: string, reviewer: string, repoRoot: string)
    requires |line| > 0 && 'A' <= line[0] <= 'Z'
    ensures var p := LeaseFiles.ParseInputLine(line);
            p.Some? ==> LeaseFiles.ProcessEntry(p.value, startdate, duration, reviewer, repoRoot)
                        == Failure(LeaseFiles.ServiceNameNotLowercase(p.value.service))
  {
    TrimKeepsFirst(line);
    var p := LeaseFiles.ParseInputLine(line);
    if p.Some? {
      CapitalServiceRejected(p.value, startdate, duration, reviewer, repoRoot);
    }
  }

  lemma CapitalServiceRejected(e: LeaseFiles.LeaseEntry, startdate: string, duration: string, reviewer: string, repoRoot: string)
    requires |e.service| > 0 && 'A' <= e.service[0] <= 'Z'
    ensures LeaseFiles.ProcessEntry(e, startdate, duration, reviewer, repoRoot)
            == Failure(LeaseFiles.ServiceNameNotLowercase(e.service))
  {
    assert !LeaseFiles.IsLowerAlnum(e.service[0]);
  }
}

=== FILE: SpecTree.dfy ===
/** The part of the file system the resource-provider scripts look at, and the rules
    all three of them share: which directory is a service group, which resource
    provider has version directories, how a found resource provider becomes a record,
    and how the repository root is found.

    A directory is the list `readdir` / `iterdir` returns, in that order. A `Dangling`
    entry is one that is listed but cannot be followed (a broken symbolic link): it
    does not exist for `existsSync` / `Path.exists`, is not a directory for
    `Path.is_dir`, and makes `fs.statSync` throw. A link to a directory or a file is
    the node it points to. */
module SpecTree {
  import opened Wrappers
  import opened Text
  import Order

  datatype Node = File | Dangling | Dir(entries: seq<Entry>)

  datatype Entry = Entry(name: string, node: Node)

  /** The node called `name` in a directory listing (the first, should there be two). */
  function Lookup(entries: seq<Entry>, name: string): (r: Option<Node>)
    ensures r.None? <==> forall k :: 0 <= k < |entries| ==> entries[k].name != name
    ensures r.Some? ==> exists k :: 0 <= k < |entries| && entries[k] == Entry(name, r.value)
  {
    if |entries| == 0 then None
    else if entries[0].name == name then Some(entries[0].node)
    else
      var r := Lookup(entries[1..], name);
      assert forall k :: 0 < k < |entries| ==> entries[k] == entries[1..][k - 1];
      r
  }

  /** `path.join(dir, name)` / `dir / name`: only a directory has children. */
  function Child(n: Node, name: string): Option<Node>
  {
    if n.Dir? then Lookup(n.entries, name) else None
  }

  /** `fs.existsSync(p)` and `p.exists()`: both follow links. */
  predicate Exists(n: Option<Node>)
  {
    n.Some? && !n.value.Dangling?
  }

  /** `fs.statSync(p).isDirectory()` when it does not throw, and `p.is_dir()`. */
  predicate IsDir(n: Option<Node>)
  {
    n.Some? && n.value.Dir?
  }

  const SpecificationDir: string := "specification"
  const ResourceManagerDir: string := "resource-manager"
  const ProviderPrefix: string := "Microsoft."
  const ExcludedNames: set<string> := {"stable", "preview", "common-types", "examples"}

  /** `isServiceGroupDirectory` / `is_service_group_directory`: a subdirectory of a
      resource provider that is not a version, shared-types or examples directory.
      A broken link is not one (JavaScript catches the `statSync` error, Python's
      `is_dir` says no). */
  predicate IsServiceGroupDirectory(e: Entry)
  {
    e.name !in ExcludedNames && e.node.Dir?
  }

  /** The names of the service-group directories, in listing order. */
  function ServiceGroups(children: seq<Entry>): (r: seq<string>)
    ensures |r| <= |children|
    ensures forall g :: g in r <==> exists k :: 0 <= k < |children| && children[k].name == g
                                                 && IsServiceGroupDirectory(children[k])
    ensures |r| == 0 <==> forall k :: 0 <= k < |children| ==> !IsServiceGroupDirectory(children[k])
  {
    if |children| == 0 then []
    else
      var rest := ServiceGroups(children[1..]);
      assert forall k :: 0 < k < |children| ==> children[k] == children[1..][k - 1];
      if IsServiceGroupDirectory(children[0]) then [children[0].name] + rest else rest
  }

  /** `hasVersionDirectories` / `has_version_directories`. */
  predicate HasVersionDirectories(rp: Node)
  {
    Exists(Child(rp, "stable")) || Exists(Child(rp, "preview"))
  }

  /** A resource-provider directory the walk reached: its service directory's name, its
      own name (which starts with `Microsoft.`), and the directory itself. */
  datatype Candidate = Candidate(service: string, name: string, dir: Node)

  /** The record the scripts print. `serviceGroups` is absent (`None`) in the records
      of resource providers without service groups. */
  datatype ResourceProvider = ResourceProvider(name: string, path: string, service: string,
                                               serviceGroups: Option<seq<string>>)

  /** `path.relative(repoRoot, item)` / `item.relative_to(repo_root)`. */
  function RelativePath(service: string, name: string): string
  {
    SpecificationDir + "/" + service + "/" + ResourceManagerDir + "/" + name
  }

  /** Why a scan or the search for the repository root stops. */
  datatype ScanError =
    | RepoRootNotFound
    | SpecificationNotFound
    | NotADirectory(path: string)
    | BrokenEntry(path: string)

  /** The entries of a service's `resource-manager` directory, when both are
      directories. */
  function RmItems(service: Entry): seq<Entry>
  {
    if service.node.Dir? then
      match Child(service.node, ResourceManagerDir)
      case Some(Dir(items)) => items
      case _ => []
    else []
  }

  /** An entry of a `resource-manager` directory the scripts treat as a resource
      provider. */
  predicate IsProviderDir(item: Entry)
  {
    item.node.Dir? && StartsWith(item.name, ProviderPrefix)
  }

  /** The decision both `find_resource_providers` and `findResourceProviders` make about
      one resource provider: with service groups wanted, a provider that has some is
      listed with its groups sorted; without, a provider that has none but has a
      `stable` or `preview` directory is listed without a groups field. */
  function Classify(c: Candidate, withGroups: bool): (r: Option<ResourceProvider>)
    ensures r.Some? ==> r.value.name == c.name && r.value.service == c.service
                        && r.value.path == RelativePath(c.service, c.name)
    ensures r.Some? ==> c.dir.Dir?
    ensures r.Some? <==> if withGroups then c.dir.Dir? && |ServiceGroups(c.dir.entries)| > 0
                         else c.dir.Dir? && |ServiceGroups(c.dir.entries)| == 0 && HasVersionDirectories(c.dir)
    ensures r.Some? && withGroups ==>
              && r.value.serviceGroups.Some?
              && Order.SortedBy(r.value.serviceGroups.value, Order.Self)
              && multiset(r.value.serviceGroups.value) == multiset(ServiceGroups(c.dir.entries))
    ensures r.Some? && !withGroups ==> r.value.serviceGroups.None?
  {
    if !c.dir.Dir? then None
    else
      var groups := ServiceGroups(c.dir.entries);
      var path := RelativePath(c.service, c.name);
      if withGroups && |groups| > 0 then
        Some(ResourceProvider(c.name, path, c.service, Some(Order.SortStrings(groups))))
      else if !withGroups && |groups| == 0 && HasVersionDirectories(c.dir) then
        Some(ResourceProvider(c.name, path, c.service, None))
      else
        None
  }

  /** No resource provider is listed in both modes: one mode wants service groups, the
      other wants none. */
  lemma ModesExclusive(c: Candidate)
    ensures Classify(c, true).None? || Classify(c, false).None?
  {
  }

  /** The records of the candidates that are listed, in walk order. */
  function Select(cs: seq<Candidate>, withGroups: bool): (r: seq<ResourceProvider>)
    ensures |r| <= |cs|
    ensures forall rp :: rp in r <==> exists k :: 0 <= k < |cs| && Classify(cs[k], withGroups) == Some(rp)
  {
    if |cs| == 0 then []
    else
      var rest := Select(cs[1..], withGroups);
      assert forall k :: 0 < k < |cs| ==> cs[k] == cs[1..][k - 1];
      match Classify(cs[0], withGroups)
      case Some(rp) => [rp] + rest
      case None => rest
  }

  function Name(rp: ResourceProvider): string
  {
    rp.name
  }

  /** The final `sort` by name (the insertion sort used here is stable, as both
      languages' sorts are; the contract states order and permutation only). */
  function SortByName(rps: seq<ResourceProvider>): (r: seq<ResourceProvider>)
    ensures Order.SortedBy(r, Name)
    ensures multiset(r) == multiset(rps)
  {
    Order.SortBy(rps, Name)
  }

  /** Where a resource-provider candidate may come from: entry `k` of the
      `resource-manager` directory of service `i`, when it is a provider directory. */
  predicate Found(services: seq<Entry>, c: Candidate)
  {
    exists i, k :: 0 <= i < |services| && 0 <= k < |RmItems(services[i])|
                   && IsProviderDir(RmItems(services[i])[k])
                   && c == Candidate(services[i].name, RmItems(services[i])[k].name, RmItems(services[i])[k].node)
  }

  /** A record a full scan of `services` should list. */
  ghost predicate Listed(services: seq<Entry>, withGroups: bool, rp: ResourceProvider)
  {
    exists c :: Found(services, c) && Classify(c, withGroups) == Some(rp)
  }

  /** What every listed record looks like. */
  predicate WellFormedRecord(rp: ResourceProvider, withGroups: bool)
  {
    && StartsWith(rp.name, ProviderPrefix)
    && rp.path == RelativePath(rp.service, rp.name)
    && (withGroups <==> rp.serviceGroups.Some?)
    && (withGroups ==> |rp.serviceGroups.value| > 0 && Order.SortedBy(rp.serviceGroups.value, Order.Self))
  }

  lemma ListedIsWellFormed(services: seq<Entry>, withGroups: bool, rp: ResourceProvider)
    requires Listed(services, withGroups, rp)
    ensures WellFormedRecord(rp, withGroups)
  {
    var c :| Found(services, c) && Classify(c, withGroups) == Some(rp);
    var i, k :| 0 <= i < |services| && 0 <= k < |RmItems(services[i])|
                && IsProviderDir(RmItems(services[i])[k])
                && c == Candidate(services[i].name, RmItems(services[i])[k].name, RmItems(services[i])[k].node);
    if withGroups {
      assert |ServiceGroups(c.dir.entries)| > 0;
      assert |multiset(rp.serviceGroups.value)| == |multiset(ServiceGroups(c.dir.entries))|;
    }
  }

  /** Splitting off the first service of a scan. */
  lemma FoundCons(services: seq<Entry>, c: Candidate)
    requires |services| > 0
    ensures Found(services, c) <==>
            (|| (exists k :: 0 <= k < |RmItems(services[0])| && IsProviderDir(RmItems(services[0])[k])
                             && c == Candidate(services[0].name, RmItems(services[0])[k].name, RmItems(services[0])[k].node))
             || Found(services[1..], c))
  {
    if Found(services, c) {
      var i, k :| 0 <= i < |services| && 0 <= k < |RmItems(services[i])|
                  && IsProviderDir(RmItems(services[i])[k])
                  && c == Candidate(services[i].name, RmItems(services[i])[k].name, RmItems(services[i])[k].node);
      if i > 0 {
        assert services[1..][i - 1] == services[i];
      }
    }
    if Found(services[1..], c) {
      var i, k :| 0 <= i < |services[1..]| && 0 <= k < |RmItems(services[1..][i])|
                  && IsProviderDir(RmItems(services[1..][i])[k])
                  && c == Candidate(services[1..][i].name, RmItems(services[1..][i])[k].name, RmItems(services[1..][i])[k].node);
      assert services[1..][i] == services[i + 1];
    }
  }

  /** What the end of `find_resource_providers` / `findResourceProviders` lists: the
      records of exactly the candidates that are listed. */
  lemma SelectSorted(services: seq<Entry>, cs: seq<Candidate>, withGroups: bool)
    requires forall c :: c in cs <==> Found(services, c)
    ensures forall rp :: rp in SortByName(Select(cs, withGroups)) <==> Listed(services, withGroups, rp)
  {
    var sel := Select(cs, withGroups);
    forall rp
      ensures rp in SortByName(sel) <==> Listed(services, withGroups, rp)
    {
      assert rp in SortByName(sel) <==> rp in multiset(SortByName(sel));
      assert rp in sel <==> rp in multiset(sel);
      if rp in sel {
        var k :| 0 <= k < |cs| && Classify(cs[k], withGroups) == Some(rp);
        assert cs[k] in cs;
      }
      if Listed(services, withGroups, rp) {
        var c :| Found(services, c) && Classify(c, withGroups) == Some(rp);
        var k :| 0 <= k < |cs| && cs[k] == c;
      }
    }
  }

  /** A `resource-manager` entry that exists but is a file: listing it fails
      (`ENOTDIR` in JavaScript, `NotADirectoryError` in Python). */
  predicate RmIsFile(service: Entry)
  {
    service.node.Dir? && Child(service.node, ResourceManagerDir) == Some(File)
  }

  /** The path of a service's `resource-manager` directory. */
  function RmPath(service: string): string
  {
    SpecificationDir + "/" + service + "/" + ResourceManagerDir
  }

  /** The directory `specification` of a repository root, if it is one. */
  function SpecEntries(root: Node): seq<Entry>
  {
    match Child(root, SpecificationDir)
    case Some(Dir(entries)) => entries
    case _ => []
  }

  // ---------------------------------------------------------------------------
  // Output

  datatype Format = List | Json | Table

  /** What `format_output` / `formatOutput` return. JSON rendering is not modelled:
      the records themselves stand for `json.dumps` / `JSON.stringify` of them. */
  datatype Output = JsonRecords(records: seq<ResourceProvider>) | Text(text: string)

  function NoneFoundMessage(withGroups: bool): string
  {
    "No resource providers " + (if withGroups then "with" else "without") + " service groups found."
  }

  function Names(rps: seq<ResourceProvider>): (r: seq<string>)
    ensures |r| == |rps| && forall k :: 0 <= k < |rps| ==> r[k] == rps[k].name
  {
    seq(|rps|, k requires 0 <= k < |rps| => rps[k].name)
  }

  function Services(rps: seq<ResourceProvider>): (r: seq<string>)
    ensures |r| == |rps| && forall k :: 0 <= k < |rps| ==> r[k] == rps[k].service
  {
    seq(|rps|, k requires 0 <= k < |rps| => rps[k].service)
  }

  /** `max(len(x) for x in xs)` / `Math.max(...xs.map(x => x.length))` on a non-empty
      list; 0 for the empty one, which the scripts never pass. */
  function MaxLength(xs: seq<string>): (m: nat)
    ensures forall k :: 0 <= k < |xs| ==> |xs[k]| <= m
    ensures |xs| > 0 ==> exists k :: 0 <= k < |xs| && |xs[k]| == m
    ensures |xs| == 0 ==> m == 0
  {
    if |xs| == 0 then 0
    else
      var rest := MaxLength(xs[1..]);
      assert forall k :: 0 < k < |xs| ==> xs[k] == xs[1..][k - 1];
      if |xs[0]| >= rest then |xs[0]| else rest
  }

  /** The groups of a record printed in with-groups mode. */
  function GroupsOf(rp: ResourceProvider): seq<string>
  {
    if rp.serviceGroups.Some? then rp.serviceGroups.value else []
  }

  /** No printed field holds a line break, so the output has one line per row. */
  predicate SingleLineFields(rps: seq<ResourceProvider>)
  {
    forall k :: 0 <= k < |rps| ==> SingleLineRecord(rps[k])
  }

  /** No field of the record holds a line break. */
  predicate SingleLineRecord(rp: ResourceProvider)
  {
    && '\n' !in rp.name && '\n' !in rp.service && '\n' !in rp.path
    && forall g :: 0 <= g < |GroupsOf(rp)| ==> '\n' !in GroupsOf(rp)[g]
  }

  const NameHeader: string := "Resource Provider"
  const ServiceHeader: string := "Service"

  lemma HeadingsSingleLine()
    ensures '\n' !in NameHeader && '\n' !in ServiceHeader && |NameHeader| == 17
  {
  }

  /** The summary `main` prints after a list or a table. */
  function TotalLine(count: nat, withGroups: bool): string
  {
    "Total: " + NatToString(count) + " resource provider(s) " + (if withGroups then "with" else "without")
    + " service groups"
  }

  /** What `main` writes to standard output for a list or a table: the formatted text
      and a line break (`print` / `console.log`), then an empty line, the summary and
      a line break. */
  function Report(text: string, count: nat, withGroups: bool): string
  {
    text + "\n" + "\n" + TotalLine(count, withGroups) + "\n"
  }

  /** A padded column of a table row: its text and the width it is padded to. */
  datatype Column = Column(text: string, width: nat)

  /** A table row, `f"{a:<{wa}}  {b:<{wb}}  {c}"` / `` `${a.padEnd(wa)}  ${b.padEnd(wb)}  ${c}` ``:
      every column padded to its width and followed by two spaces, then the last
      column as it is. */
  function Render(cols: seq<Column>, last: string): string
    decreases |cols|
  {
    if |cols| == 0 then last else PadEnd(cols[0].text, cols[0].width) + "  " + Render(cols[1..], last)
  }

  /** A row of two columns, the first padded to `w`. */
  function Row2(a: string, w: nat, c: string): string
  {
    Render([Column(a, w)], c)
  }

  /** A row of three columns, the first two padded to `wa` and `wb`. */
  function Row3(a: string, wa: nat, b: string, wb: nat, c: string): string
  {
    Render([Column(a, wa), Column(b, wb)], c)
  }

  /** Rendering a first column, then the rest of the row. */
  lemma RenderCons(col: Column, cols: seq<Column>, last: string)
    ensures Render([col] + cols, last) == PadEnd(col.text, col.width) + "  " + Render(cols, last)
  {
    assert ([col] + cols)[1..] == cols;
  }

  /** A three-column row is a two-column row whose rest is a two-column row. */
  lemma Row3IsNested(a: string, wa: nat, b: string, wb: nat, c: string)
    ensures Row3(a, wa, b, wb, c) == Row2(a, wa, Row2(b, wb, c))
    ensures Row2(a, wa, c) == PadEnd(a, wa) + "  " + c
  {
    RenderCons(Column(a, wa), [Column(b, wb)], c);
    RenderCons(Column(b, wb), [], c);
    RenderCons(Column(a, wa), [], c);
    RenderCons(Column(a, wa), [], Row2(b, wb, c));
    assert [Column(a, wa)] + [Column(b, wb)] == [Column(a, wa), Column(b, wb)];
    assert [Column(b, wb)] + [] == [Column(b, wb)];
    assert [Column(a, wa)] + [] == [Column(a, wa)];
  }

  /** Padding and gaps add only spaces: a character other than a space that is in no
      column and not in the last one is not in the row. */
  lemma {:induction false} RenderExcludes(cols: seq<Column>, last: string, ch: char)
    requires ch != ' ' && ch !in last
    requires forall k :: 0 <= k < |cols| ==> ch !in cols[k].text
    ensures ch !in Render(cols, last)
    decreases |cols|
  {
    if |cols| > 0 {
      RenderExcludes(cols[1..], last, ch);
      PadEndExcludes(cols[0].text, cols[0].width, ch);
    }
  }

  /** `row` starts with a cell `w` wide holding `text`: `text`, then spaces up to
      column `w`, then the two-space gap. */
  predicate Cell(row: string, text: string, w: nat)
  {
    |text| <= w && |row| >= w + 2 && row[..|text|] == text
    && forall i :: |text| <= i < w + 2 ==> row[i] == ' '
  }

  /** A two-column row holds its first column in a cell exactly `w` wide, and the
      rest starts at column `w + 2`. */
  lemma Row2Layout(a: string, w: nat, c: string)
    requires |a| <= w
    ensures Cell(Row2(a, w, c), a, w) && Row2(a, w, c)[w + 2..] == c
  {
    Row3IsNested(a, w, a, w, c);
    var rest := "  " + c;
    var cell := PadEnd(a, w);
    PaddedCell(a, w, rest);
    var row := cell + rest;
    assert Row2(a, w, c) == row;
    assert row[..|a|] == cell[..|a|];
    assert forall i :: |a| <= i < w + 2 ==> row[i] == ' ' by {
      forall i | |a| <= i < w + 2 ensures row[i] == ' ' {
        if i < w { assert row[i] == cell[i]; } else { assert row[i] == rest[i - w]; }
      }
    }
  }

  /** A three-column row: the first cell is `wa` wide, the second starts at column
      `wa + 2` and is `wb` wide, the rest starts at column `wa + wb + 4`. */
  lemma Row3Layout(a: string, wa: nat, b: string, wb: nat, c: string)
    requires |a| <= wa && |b| <= wb
    ensures var row := Row3(a, wa, b, wb, c);
            Cell(row, a, wa) && Cell(row[wa + 2..], b, wb) && row[wa + wb + 4..] == c
  {
    Row3IsNested(a, wa, b, wb, c);
    Row2Layout(a, wa, Row2(b, wb, c));
    Row2Layout(b, wb, c);
    var row := Row3(a, wa, b, wb, c);
    assert row[wa + 2..][wb + 2..] == row[wa + wb + 4..];
  }

  lemma Row2Excludes(a: string, w: nat, c: string, ch: char)
    requires ch != ' ' && ch !in a && ch !in c
    ensures ch !in Row2(a, w, c)
  {
    RenderExcludes([Column(a, w)], c, ch);
  }

  lemma Row3Excludes(a: string, wa: nat, b: string, wb: nat, c: string, ch: char)
    requires ch != ' ' && ch !in a && ch !in b && ch !in c
    ensures ch !in Row3(a, wa, b, wb, c)
  {
    RenderExcludes([Column(a, wa), Column(b, wb)], c, ch);
  }

  /** Every record's name fits the name column, every service the service column. */
  lemma WidthsFit(rps: seq<ResourceProvider>)
    ensures forall k :: 0 <= k < |rps| ==> |rps[k].name| <= MaxLength(Names(rps))
    ensures forall k :: 0 <= k < |rps| ==> |rps[k].service| <= MaxLength(Services(rps))
  {
    forall k | 0 <= k < |rps|
      ensures |rps[k].name| <= MaxLength(Names(rps)) && |rps[k].service| <= MaxLength(Services(rps))
    {
      assert Names(rps)[k] == rps[k].name;
      assert Services(rps)[k] == rps[k].service;
    }
  }

  // ---------------------------------------------------------------------------
  // Repository root

  /** An ancestor that holds a `specification` directory (`requireDir`, as
      `find_repo_root` and `findRepoRoot` of `fetch-resource-providers.js` check) or
      any existing `specification` entry (as the lease generator's `findRepoRoot`
      checks). */
  predicate MarksRepoRoot(dir: Node, requireDir: bool)
  {
    var spec := Child(dir, SpecificationDir);
    if requireDir then IsDir(spec) else Exists(spec)
  }

  const MaxRootSearch: nat := 6

  /** `find_repo_root` and the two `findRepoRoot`s: `ancestors[0]` is the resolved start
      directory and each next one its parent, the last being the file-system root
      (its own parent). The start and at most five parents are tried, nearest first,
      and the index of the first that marks the root is returned. */
  method FindRepoRoot(ancestors: seq<Node>, requireDir: bool) returns (r: Result<nat, ScanError>)
    requires |ancestors| >= 1
    ensures r.Success? <==> exists i :: 0 <= i < |ancestors| && i < MaxRootSearch && MarksRepoRoot(ancestors[i], requireDir)
    ensures r.Success? ==> && r.value < |ancestors| && r.value < MaxRootSearch
                           && MarksRepoRoot(ancestors[r.value], requireDir)
                           && forall j :: 0 <= j < r.value ==> !MarksRepoRoot(ancestors[j], requireDir)
    ensures r.Failure? ==> r.error == RepoRootNotFound
  {
    var i := 0;
    while i < MaxRootSearch
      invariant 0 <= i <= MaxRootSearch && i < |ancestors|
      invariant forall j :: 0 <= j < i ==> !MarksRepoRoot(ancestors[j], requireDir)
    {
      if MarksRepoRoot(ancestors[i], requireDir) {
        return Success(i);
      }
      if i == |ancestors| - 1 {
        // the parent of the file-system root is itself
        return Failure(RepoRootNotFound);
      }
      i := i + 1;
    }
    return Failure(RepoRootNotFound);
  }
}

=== FILE: Text.dfy ===
/** String primitives with the semantics of the JavaScript and Python built-ins the
    scripts call: `trim`, `split`, `join`, `padEnd` / `:<n`, `repeat` / `*`,
    `startsWith`, `parseInt` on digit strings, and number-to-text conversion. */
module Text {

  /** White space as JavaScript's `String.prototype.trim` and the regular-expression
      class `\s` see it: the WhiteSpace and LineTerminator code points of ECMAScript. */
  predicate IsSpace(c: char) {
    || c == ' ' || c == '\t' || c == '\n' || c == '\r'
    || c == '\U{000B}' || c == '\U{000C}' || c == '\U{00A0}' || c == '\U{1680}'
    || ('\U{2000}' <= c <= '\U{200A}')
    || c == '\U{2028}' || c == '\U{2029}' || c == '\U{202F}' || c == '\U{205F}'
    || c == '\U{3000}' || c == '\U{FEFF}'
  }

  predicate AllSpace(s: string) {
    forall i :: 0 <= i < |s| ==> IsSpace(s[i])
  }

  /** No white space at either end. */
  predicate IsTrimmed(s: string) {
    |s| == 0 || (!IsSpace(s[0]) && !IsSpace(s[|s| - 1]))
  }

  /** The digit class `\d` of a JavaScript regular expression (ASCII only). */
  predicate IsAsciiDigit(c: char) {
    '0' <= c <= '9'
  }

  predicate IsDigits(s: string) {
    forall i :: 0 <= i < |s| ==> IsAsciiDigit(s[i])
  }

  predicate IsUpperAscii(c: char) {
    'A' <= c <= 'Z'
  }

  predicate IsLowerAscii(c: char) {
    'a' <= c <= 'z'
  }

  predicate StartsWith(s: string, prefix: string) {
    |prefix| <= |s| && s[..|prefix|] == prefix
  }

  /** Number of white-space characters `s` ends with. */
  function SpaceSuffix(s: string): (n: nat)
    ensures n <= |s|
    ensures forall j :: |s| - n <= j < |s| ==> IsSpace(s[j])
    ensures n < |s| ==> !IsSpace(s[|s| - n - 1])
  {
    if |s| == 0 || !IsSpace(s[|s| - 1]) then 0
    else 1 + SpaceSuffix(s[..|s| - 1])
  }

  /** JavaScript's `String.prototype.trim`: `s` without its leading and trailing white
      space (`TrimInfix` states what that leaves). */
  function Trim(s: string): (r: string)
    ensures IsTrimmed(r) && |r| <= |s|
  {
    var i := SpacePrefix(s);
    if i == |s| then []
    else
      assert !IsSpace(s[i]);
      s[i..|s| - SpaceSuffix(s)]
  }

  /** The trimmed string is the infix of `s` that white space alone surrounds. */
  lemma TrimInfix(s: string) returns (i: nat)
    ensures i + |Trim(s)| <= |s| && Trim(s) == s[i..i + |Trim(s)|]
    ensures AllSpace(s[..i]) && AllSpace(s[i + |Trim(s)|..])
  {
    i := SpacePrefix(s);
    if i < |s| {
      var e := |s| - SpaceSuffix(s);
      assert i + |Trim(s)| == e;
      assert forall j :: 0 <= j < |s[e..]| ==> s[e..][j] == s[e + j];
    }
  }

  /** Trimming is the identity on trimmed strings, so in particular it is idempotent. */
  lemma TrimOfTrimmed(s: string)
    requires IsTrimmed(s)
    ensures Trim(s) == s
  {
    if |s| > 0 {
      assert SpacePrefix(s) == 0 && SpaceSuffix(s) == 0;
      assert s[0..|s|] == s;
    }
  }

  /** Trimming adds no character: what `s` lacks, `Trim(s)` lacks too. */
  lemma TrimExcludes(s: string, c: char)
    requires c !in s
    ensures c !in Trim(s)
  {
    var i := TrimInfix(s);
    assert forall j :: 0 <= j < |Trim(s)| ==> Trim(s)[j] == s[i + j];
  }

  /** A string that starts with a non-space character keeps that first character. */
  lemma TrimKeepsFirst(s: string)
    requires |s| > 0 && !IsSpace(s[0])
    ensures |Trim(s)| > 0 && Trim(s)[0] == s[0]
  {
    assert SpacePrefix(s) == 0;
  }

  /** Removing white space in front of an already trimmed string gives it back. */
  lemma TrimAfterSpace(w: string, s: string)
    requires AllSpace(w) && IsTrimmed(s)
    ensures Trim(w + s) == s
  {
    SpacePrefixAfter(w, s);
    if |s| > 0 {
      assert (w + s)[|w + s| - 1] == s[|s| - 1];
      assert SpaceSuffix(w + s) == 0;
      assert (w + s)[|w|..|w + s|] == s;
    }
  }

  /** `\s*` in front of a string that does not start with white space takes exactly
      the white space. */
  lemma {:induction false} SpacePrefixAfter(w: string, s: string)
    requires AllSpace(w) && (|s| == 0 || !IsSpace(s[0]))
    ensures SpacePrefix(w + s) == |w|
  {
    if |w| > 0 {
      assert (w + s)[0] == w[0];
      assert (w + s)[1..] == w[1..] + s;
      SpacePrefixAfter(w[1..], s);
    } else {
      assert w + s == s;
    }
  }

  /** Index of the first character of `s` that is in `cs`, or `|s|` when there is none. */
  function IndexOfAny(s: string, cs: set<char>): (i: nat)
    ensures i <= |s|
    ensures i < |s| ==> s[i] in cs
    ensures forall j :: 0 <= j < i ==> s[j] !in cs
  {
    if |s| == 0 || s[0] in cs then 0 else 1 + IndexOfAny(s[1..], cs)
  }

  /** JavaScript's `indexOf` for one character, with `|s|` in place of -1. */
  function IndexOf(s: string, c: char): (i: nat)
    ensures i <= |s|
    ensures i < |s| ==> s[i] == c
    ensures forall j :: 0 <= j < i ==> s[j] != c
  {
    IndexOfAny(s, {c})
  }

  /** Number of white-space characters `s` starts with (what `\s*` consumes). */
  function SpacePrefix(s: string): (n: nat)
    ensures n <= |s|
    ensures AllSpace(s[..n])
    ensures n < |s| ==> !IsSpace(s[n])
  {
    if |s| == 0 || !IsSpace(s[0]) then 0
    else
      var n := SpacePrefix(s[1..]);
      assert s[..n + 1] == [s[0]] + s[1..][..n];
      n + 1
  }

  /** `parts.join(sep)` in JavaScript, `sep.join(parts)` in Python. */
  function Join(parts: seq<string>, sep: string): string
  {
    if |parts| == 0 then ""
    else if |parts| == 1 then parts[0]
    else parts[0] + sep + Join(parts[1..], sep)
  }

  /** Joining a list of at least two parts puts the separator after the first. */
  lemma JoinCons(x: string, rest: seq<string>, sep: string)
    requires |rest| >= 1
    ensures Join([x] + rest, sep) == x + sep + Join(rest, sep)
  {
    assert ([x] + rest)[1..] == rest;
  }

  /** Joining adds only separators: a character in no part and not in `sep` is not
      in the result. */
  lemma {:induction false} JoinExcludes(parts: seq<string>, sep: string, c: char)
    requires c !in sep
    requires forall k :: 0 <= k < |parts| ==> c !in parts[k]
    ensures c !in Join(parts, sep)
  {
    if |parts| > 1 {
      JoinExcludes(parts[1..], sep, c);
    }
  }

  lemma PadEndExcludes(s: string, n: nat, c: char)
    requires c != ' ' && c !in s
    ensures c !in PadEnd(s, n)
  {
    var r := PadEnd(s, n);
    forall i | 0 <= i < |r| ensures r[i] != c {
      if i < |s| { assert r[i] == r[..|s|][i]; }
    }
  }

  /** A padded cell followed by more text: the cell is exactly `n` wide. */
  lemma PaddedCell(s: string, n: nat, rest: string)
    requires |s| <= n
    ensures |PadEnd(s, n) + rest| == n + |rest|
    ensures (PadEnd(s, n) + rest)[..n] == PadEnd(s, n)
    ensures (PadEnd(s, n) + rest)[n..] == rest
  {
  }

  /** `s.split(sep)` for a one-character separator, in JavaScript and in Python alike:
      the empty string splits into one empty part, and joining the parts back with
      the separator gives `s` again. */
  function Split(s: string, sep: char): (parts: seq<string>)
    ensures |parts| >= 1
    ensures forall k :: 0 <= k < |parts| ==> sep !in parts[k]
    ensures Join(parts, [sep]) == s
    decreases |s|
  {
    var i := IndexOf(s, sep);
    if i == |s| then
      [s]
    else
      var rest := Split(s[i + 1..], sep);
      var parts := [s[..i]] + rest;
      assert parts[1..] == rest;
      assert s == s[..i] + [sep] + s[i + 1..];
      parts
  }

  /** A character in none of three pieces is in none of the lines they make up. */
  lemma ExcludedFromAll(a: string, b: string, rest: seq<string>, c: char)
    requires c !in a && c !in b && forall k :: 0 <= k < |rest| ==> c !in rest[k]
    ensures var lines := [a, b] + rest;
            forall k :: 0 <= k < |lines| ==> c !in lines[k]
  {
    var lines := [a, b] + rest;
    forall k | 2 <= k < |lines| ensures c !in lines[k] {
      assert lines[k] == rest[k - 2];
    }
  }

  /** A character in none of the lines of `xs` and none of `ys` is in none of `xs + ys`. */
  lemma ExcludedFromConcat(xs: seq<string>, ys: seq<string>, c: char)
    requires forall k :: 0 <= k < |xs| ==> c !in xs[k]
    requires forall k :: 0 <= k < |ys| ==> c !in ys[k]
    ensures var lines := xs + ys;
            forall k :: 0 <= k < |lines| ==> c !in lines[k]
  {
    var lines := xs + ys;
    forall k | |xs| <= k < |lines| ensures c !in lines[k] {
      assert lines[k] == ys[k - |xs|];
    }
  }

  /** Splitting undoes joining when no part contains the separator. */
  lemma {:induction false} SplitJoin(parts: seq<string>, sep: char)
    requires |parts| >= 1
    requires forall k :: 0 <= k < |parts| ==> sep !in parts[k]
    ensures Split(Join(parts, [sep]), sep) == parts
  {
    var s := Join(parts, [sep]);
    if |parts| == 1 {
      assert IndexOf(s, sep) == |s|;
    } else {
      var tail := Join(parts[1..], [sep]);
      assert s == parts[0] + [sep] + tail;
      IndexOfAfter(parts[0], sep, tail);
      assert s[..|parts[0]|] == parts[0];
      assert s[|parts[0]| + 1..] == tail;
      SplitJoin(parts[1..], sep);
      assert [parts[0]] + parts[1..] == parts;
    }
  }

  /** The first character from `cs` in `a + b` is the first of `b` when `a` has none. */
  lemma IndexOfAnyAfter(a: string, b: string, cs: set<char>)
    requires forall i :: 0 <= i < |a| ==> a[i] !in cs
    requires |b| > 0 && b[0] in cs
    ensures IndexOfAny(a + b, cs) == |a|
  {
    var s := a + b;
    assert forall j :: 0 <= j < |a| ==> s[j] == a[j];
    assert s[|a|] == b[0];
  }

  lemma IndexOfAnyNone(a: string, cs: set<char>)
    requires forall i :: 0 <= i < |a| ==> a[i] !in cs
    ensures IndexOfAny(a, cs) == |a|
  {
  }

  /** Joining two non-empty lists puts one separator between their joins. */
  lemma {:induction false} JoinAppend(a: seq<string>, b: seq<string>, sep: string)
    requires |a| >= 1 && |b| >= 1
    ensures Join(a + b, sep) == Join(a, sep) + sep + Join(b, sep)
  {
    if |a| == 1 {
      JoinCons(a[0], b, sep);
      assert a + b == [a[0]] + b;
    } else {
      assert (a + b)[1..] == a[1..] + b;
      JoinAppend(a[1..], b, sep);
      JoinCons(a[0], a[1..] + b, sep);
      JoinCons(a[0], a[1..], sep);
      assert [a[0]] + (a[1..] + b) == a + b;
      assert [a[0]] + a[1..] == a;
    }
  }

  /** Each part with one space in front: what `split(',')` gives back for the parts
      after the first of a `, `-join. */
  function Spaced(parts: seq<string>): (r: seq<string>)
    ensures |r| == |parts| && forall k :: 0 <= k < |parts| ==> r[k] == " " + parts[k]
  {
    seq(|parts|, k requires 0 <= k < |parts| => " " + parts[k])
  }

  lemma {:induction false} SpacedJoin(parts: seq<string>)
    requires |parts| >= 1
    ensures Join(Spaced(parts), ",") == " " + Join(parts, ", ")
  {
    if |parts| > 1 {
      var rest := parts[1..];
      SpacedJoin(rest);
      assert Spaced(parts) == [" " + parts[0]] + Spaced(rest);
      JoinCons(" " + parts[0], Spaced(rest), ",");
      JoinCons(parts[0], rest, ", ");
      assert [parts[0]] + rest == parts;
    }
  }

  /** A `, `-join is a `,`-join of the first part and the others with a space in front. */
  lemma CommaSpaceJoin(parts: seq<string>)
    requires |parts| >= 1
    ensures Join(parts, ", ") == Join([parts[0]] + Spaced(parts[1..]), ",")
  {
    if |parts| > 1 {
      CommaSpaceJoinCons(parts[0], parts[1..]);
      assert [parts[0]] + parts[1..] == parts;
    } else {
      assert [parts[0]] + Spaced(parts[1..]) == [parts[0]];
    }
  }

  lemma CommaSpaceJoinCons(x: string, rest: seq<string>)
    requires |rest| >= 1
    ensures Join([x] + rest, ", ") == Join([x] + Spaced(rest), ",")
  {
    var j := Join(rest, ", ");
    var sp := Spaced(rest);
    SpacedJoin(rest);
    JoinCons(x, sp, ",");
    JoinCons(x, rest, ", ");
    CommaThenSpace(x, j);
  }

  lemma CommaThenSpace(x: string, j: string)
    ensures x + ", " + j == x + "," + (" " + j)
  {
    assert ", " == "," + " ";
  }

  /** A character missing from `s` is missing from every part of its split. */
  lemma {:induction false} SplitExcludes(s: string, sep: char, c: char)
    requires c !in s
    ensures forall k :: 0 <= k < |Split(s, sep)| ==> c !in Split(s, sep)[k]
    decreases |s|
  {
    var i := IndexOf(s, sep);
    if i < |s| {
      assert forall ch :: ch in s[i + 1..] ==> ch in s;
      assert forall ch :: ch in s[..i] ==> ch in s;
      SplitExcludes(s[i + 1..], sep, c);
    }
  }

  /** A string without the separator is one part. */
  lemma SplitOne(a: string, sep: char)
    requires sep !in a
    ensures Split(a, sep) == [a]
  {
    IndexOfAnyNone(a, {sep});
  }

  /** The part before the first separator comes first, the rest splits on its own. */
  lemma SplitCons(a: string, sep: char, b: string)
    requires sep !in a
    ensures Split(a + [sep] + b, sep) == [a] + Split(b, sep)
  {
    var s := a + [sep] + b;
    IndexOfAfter(a, sep, b);
    assert s[..|a|] == a;
    assert s[|a| + 1..] == b;
  }

  lemma IndexOfAfter(a: string, c: char, b: string)
    requires c !in a
    ensures IndexOf(a + [c] + b, c) == |a|
  {
    var s := a + [c] + b;
    assert forall j :: 0 <= j < |a| ==> s[j] == a[j];
    assert s[|a|] == c;
  }

  /** `c` written `n` times: JavaScript's `c.repeat(n)`, Python's `c * n`. */
  function Repeat(c: char, n: nat): (r: string)
    ensures |r| == n
    ensures forall i :: 0 <= i < n ==> r[i] == c
  {
    seq(n, _ => c)
  }

  /** JavaScript's `s.padEnd(n)` and Python's `f"{s:<{n}}"`: `s` followed by enough
      spaces to make it `n` long; a string already that long is left alone. */
  function PadEnd(s: string, n: nat): (r: string)
    ensures |r| == if |s| <= n then n else |s|
  {
    if |s| >= n then s else s + Repeat(' ', n - |s|)
  }

  function DigitValue(c: char): nat
    requires IsAsciiDigit(c)
  {
    c as nat - '0' as nat
  }

  function DigitChar(d: nat): (c: char)
    requires d < 10
    ensures IsAsciiDigit(c) && DigitValue(c) == d
  {
    ('0' as nat + d) as char
  }

  /** The number a string of decimal digits denotes (`parseInt(s, 10)` on a digit
      string; leading zeros are allowed). */
  function DigitsValue(s: string): nat
    requires IsDigits(s)
  {
    if |s| == 0 then 0 else 10 * DigitsValue(s[..|s| - 1]) + DigitValue(s[|s| - 1])
  }

  /** Decimal rendering of a natural number, as template literals and f-strings do. */
  function NatToString(n: nat): (r: string)
    ensures |r| >= 1 && IsDigits(r)
    ensures DigitsValue(r) == n
  {
    if n < 10 then
      [DigitChar(n)]
    else
      var r := NatToString(n / 10) + [DigitChar(n % 10)];
      assert r[..|r| - 1] == NatToString(n / 10);
      r
  }
}

=== FILE: Wrappers.dfy ===
/** Option and Result, the two failure-compatible wrappers the model uses for
    JavaScript's `null` returns and for thrown errors. */
module Wrappers {

  /** `None` stands for JavaScript's `null` (or an absent field). */
  datatype Option<+T> = None | Some(value: T)

  /** `Failure` stands for an exception the source throws or raises. */
  datatype Result<+T, +E> = Success(value: T) | Failure(error: E) {

    predicate IsFailure() {
      Failure?
    }

    function PropagateFailure<U>(): Result<U, E>
      requires Failure?
    {
      Failure(error)
    }

    function Extract(): T
      requires Success?
    {
      value
    }
  }
}
